=== FILE: README.md ===
# pkgsite details pages, modelled in Dafny

This project models the decisions that pkgsite's details handlers make, from
`internal/frontend/details.go`, and the license redistributability rule that
`internal/license_test.go` fixes by its test vectors. Each decision is a pure
function over immutable values. The outside world appears as oracles
(function-typed parameters): the import-path check, the semantic-version check,
the license allow-list, the DataSource reads and the per-tab detail fetchers.

Modules, one per file:

- `Wrappers` (`wrappers.dfy`): `Option` and `Result`.
- `Strings` (`strings.dfy`): the Go string helpers the handlers rely on.
  These are `strings.IndexByte`, `SplitN(…, 2)`, `Split`, `Join`, `TrimPrefix`
  and `TrimSuffix`. `Join` is characterised by the split/join round trip;
  the others carry their own contracts.
- `PathResolver` (`path_resolver.dfy`): `parseDetailsURLPath` and `inStdLib`.
  The module path outcome is the datatype `Known(path) | Unknown | StdLib`.
  Only the part before `@` has one leading and one trailing `/` trimmed.
  `@latest/<suffix>` drops the suffix.
- `Fetch` (`fetch.dfy`): `fetchPackageOrModule`, in two forms.
  - `FetchPackageOrModule` is a function with a complete case table of status
    codes and error pages.
  - `RunFetch` drives the same decision as an explicit phase machine. It
    reaches the exclusion list and the lookup only through the queries it
    records, which bounds the retry.
- `Tabs` (`tabs.dfy`): the package and module tab registries and the lookup
  maps `init` builds from them. It also holds default-tab selection,
  `canShowDetails`, and the closure of the `fetchDetailsFor{Package,Module}`
  switches over the registries. Because of that closure, the "unknown tab"
  error cannot be reached from the handlers.
- `Licenses` (`licenses.dfy`): the redistributability rule over
  `(type, filePath)` records, as a specification predicate and as a
  two-pass method. It also proves all seven test vectors and models the
  root-directory filter of `createPackage`.
- `Urls` (`urls.dfy`): `constructModuleURL` and `constructPackageURL`. The
  links they build resolve back through `parseDetailsURLPath`.
- `Handlers` (`handlers.dfy`): `handlePackageDetails`, `servePackagePage`,
  `handleModuleDetails`, `createPackage` and `createModule`. Responses are
  values: the index page, the cgo redirect, an error response, the
  directory page, or a details page.

The constant values `internal.LatestVersion = "latest"` and
`stdlib.ModulePath = "std"` are defined outside the modelled files. The
`/std` routes in details.go:58 agree with the second value.

## Model

| member | source | states |
|---|---|---|
| Strings.SplitOnce | internal/frontend/details.go:358 | `SplitN(s, "@", 2)` has one part exactly when there is no `@`; otherwise the parts rejoin to `s` around the first `@` |
| Strings.Split | internal/frontend/details.go:366 | the parts of `strings.Split` never contain the separator and there is at least one part |
| Strings.JoinSplit | internal/frontend/details.go:366-367 | joining the parts of a split with the same separator gives back the original string |
| Strings.Join | internal/frontend/details.go:367 | `strings.Join`; it is characterised by `Strings.JoinSplit` and `Strings.JoinTailOfSplit`, which give back the text the parts were split from |
| Strings.JoinTailOfSplit | internal/frontend/details.go:366-367 | the parts after the first, joined again, are exactly the text after the first separator, or empty when there is none |
| Strings.TrimPrefix | internal/frontend/details.go:263 | a present prefix is removed once and the rest is kept; otherwise the string is unchanged |
| Strings.TrimSuffix | internal/frontend/details.go:359 | a present suffix is removed once; otherwise the string is unchanged |
| Strings.IndexOf | internal/frontend/details.go:554 | `IndexByte` gives the first occurrence, or -1 exactly when the byte is absent |
| PathResolver.TrimSlashes | internal/frontend/details.go:359 | case by case: a leading `/` and a trailing `/` are each removed exactly once when present (`/` alone becomes empty), and a path with neither is unchanged |
| PathResolver.TrimSlashesOfClean | internal/frontend/details.go:359 | a path with no outer slashes is its own trimmed form, also behind one leading `/` |
| PathResolver.InStdLib | internal/frontend/details.go:553-558 | a path is in the standard library exactly when its first `/`-segment has no `.` |
| Handlers.StdPackagesInStdLib | internal/frontend/details.go:553-558 | every path under the `std` module counts as standard library |
| PathResolver.SplitDetailsURLPath | internal/frontend/details.go:358-376 | no `@` gives the latest version with an unknown module. The version never contains `/`. A known module is never latest, is `@`-free, and is a proper `/`-prefix of the package path |
| PathResolver.ParseDetailsURLPath | internal/frontend/details.go:348-384 | a failure names a path the import-path check rejects. A success passes it, and its module is the standard library exactly when `inStdLib` holds |
| PathResolver.ResolveUnversioned | internal/frontend/details.go:358-383 | with no `@`, the result is the slash-trimmed path at the latest version, with an unknown module unless in the standard library; it fails exactly when the check rejects that path |
| PathResolver.VersionAndSuffix | internal/frontend/details.go:366-368 | the version is the first `/`-segment after `@` and the suffix is everything after it |
| PathResolver.SplitVersioned | internal/frontend/details.go:365-376 | with `@`, the module is known and the suffix kept exactly when the suffix is non-empty and the version is not latest; otherwise the suffix is dropped |
| PathResolver.ResolveVersioned | internal/frontend/details.go:358-384 | complete outcome for every `<base>@<version><tail>`: success iff the check passes on the computed path, with module and path as above and the standard-library override last |
| Fetch.VersionsURL | internal/frontend/details.go:224-233 | the versions link is `/<path>?tab=versions` for packages and `/mod/<path>?tab=versions` for modules |
| Handlers.VersionsLinkIsLatestHeaderURL | internal/frontend/details.go:224-233 | the versions link is the latest-version link a package header (or, outside the standard library, a module header) carries, plus the versions-tab query |
| Handlers.VersionsLinkResolves | internal/frontend/details.go:224-233 | without its query, the versions link parses back to the same package, or module, at the latest version |
| Fetch.FetchPackageOrModule | internal/frontend/details.go:177-236 | one of 200/303/400/404/500. A page exists exactly for 400 and 303. 400 iff the version is neither latest nor valid semver. 200 iff not excluded and the first lookup succeeds. 500 iff the exclusion check fails or the first lookup fails for another reason. 303 iff a non-latest miss is followed by a latest hit. 404 otherwise |
| Fetch.ExcludedLooksAbsent | internal/frontend/details.go:192-195 | an excluded path gets the same result as a non-excluded path with no version at all |
| Fetch.LookupIrrelevantBeforeLookup | internal/frontend/details.go:178-195 | an invalid version or a non-NotExcluded exclusion answer decides the result whatever the lookup would say |
| Fetch.Step | internal/frontend/details.go:177-236 | each phase of the fetch, given only the answer to its own query, moves strictly towards a finished result |
| Fetch.RunFetch | internal/frontend/details.go:177-236 | the phase machine returns the same result as the function. It queries nothing for an invalid version. The exclusion check comes first. The lookup runs iff not excluded. There are at most two lookups, and a second one is a latest retry after a NotFound at a specific version |
| Tabs.BuildLookup | internal/frontend/details.go:474-481 | the map `init` builds has exactly the registry's names as keys, and each maps to a registry entry of that name |
| Tabs.LookupOfDistinct | internal/frontend/details.go:474-481 | with distinct names, every registry entry is the one its name looks up |
| Tabs.RegistriesDistinct | internal/frontend/details.go:404-470 | tab names within each registry are distinct |
| Tabs.PackageTabKeys | internal/frontend/details.go:474-477 | the package tab lookup has exactly the seven package tab names as keys |
| Tabs.PackageTabEntries | internal/frontend/details.go:474-477 | each package tab name looks up the registry entry of that name |
| Tabs.PackageTabsAlwaysShown | internal/frontend/details.go:404-443 | the always-shown package tabs are exactly subdirectories, versions, imports and importedby |
| Tabs.PackageTabNamesListed | internal/frontend/details.go:404-443 | the package registry lists exactly the seven package tab names |
| Tabs.ModuleTabKeys | internal/frontend/details.go:478-480 | the module tab lookup has exactly the four module tab names as keys |
| Tabs.ModuleTabEntries | internal/frontend/details.go:478-480 | each module tab name looks up the registry entry of that name |
| Tabs.ModuleTabsAlwaysShown | internal/frontend/details.go:447-470 | the always-shown module tabs are exactly packages and versions |
| Tabs.ModuleTabNamesListed | internal/frontend/details.go:447-470 | the module registry lists exactly the four module tab names |
| Tabs.FetchDetailsForPackage | internal/frontend/details.go:240-257 | the package switch handles a tab exactly when it is a package registry name; any other name is the unknown-tab error |
| Tabs.FetchDetailsForModule | internal/frontend/details.go:324-337 | the module switch handles a tab exactly when it is a module registry name; any other name is the unknown-tab error |
| Tabs.PackageDispatchInjective | internal/frontend/details.go:240-257 | distinct package tabs go to distinct fetchers |
| Tabs.SelectPackageTab | internal/frontend/details.go:108-118 | a known tab is kept. An unknown tab becomes doc for a redistributable package and subdirectories otherwise. Details are shown iff the package is redistributable or the tab is always shown. The switch handles the chosen tab |
| Tabs.SelectModuleTab | internal/frontend/details.go:290-298 | a known tab is kept and an unknown one becomes readme. Details are shown iff the module is redistributable or the tab is always shown. The switch handles the chosen tab |
| Licenses.Dir | internal/frontend/details.go:519-524 | a file path's directory is everything before its last `/`, or `.` when it has none |
| Licenses.AreRedistributable | internal/license_test.go:9-70 | the redistributability rule: the root and every directory holding a license each hold an allowed one. The seven `Vector…` lemmas show it gives the tested verdicts, and `LicensesAreRedistributable` decides it |
| Licenses.LicensesAreRedistributable | internal/license_test.go:9-70 | the two-pass check answers yes exactly when the root directory and every directory holding a license each hold an allowed license |
| Licenses.CompliantAppend | internal/license_test.go:9-70 | appending a record makes its own directory compliant when its type is allowed and leaves every other directory's compliance unchanged |
| Licenses.NoLicenseNotRedistributable | internal/license_test.go:28-30 | an empty license list is not redistributable |
| Licenses.RootLicenseRequired | internal/license_test.go:22-26 | when no license file lies at the root, the set is not redistributable, whatever the allow-list |
| Licenses.NonCompliantDirectoryPoisons | internal/license_test.go:44-50 | a directory whose licenses are all disallowed makes the set non-redistributable |
| Licenses.SameRecordsSameVerdict | internal/license_test.go:9-70 | the verdict depends only on which records are present, not on their order or repetition |
| Licenses.RootLicenses | internal/frontend/details.go:519-524 | `createPackage` keeps exactly the records whose directory is the root |
| Licenses.RootLicensesOfOne | internal/frontend/details.go:519-524 | one record is kept exactly when its directory is the root |
| Licenses.RootLicensesAppend | internal/frontend/details.go:519-524 | the filter distributes over concatenation, so with the one-record case it keeps the root records in order and with their repetitions |
| Licenses.RootLicensesVerdict | internal/frontend/details.go:519-524 | the root licenses alone are redistributable exactly when the root holds an allowed license |
| Licenses.RootLicensesKeepVerdict | internal/frontend/details.go:519-524 | a redistributable set keeps that verdict when filtered to its root licenses |
| Licenses.DirOfName | internal/license_test.go:16-20 | a bare file name lies in the root directory |
| Licenses.DirOfJoined | internal/license_test.go:22-26 | `dir/name` lies in `dir` |
| Licenses.AllowedRootAndOther | internal/license_test.go:37-42 | an allowed root license plus an allowed license elsewhere is redistributable |
| Licenses.LoneDisallowedInMiddle | internal/license_test.go:44-50 | a disallowed license alone in its directory between two others is not redistributable |
| Licenses.AllowedInEachOfTwoDirectories | internal/license_test.go:52-59 | two directories that each hold an allowed license are redistributable, even with a disallowed license beside one of them |
| Licenses.VectorRedistributableLicense | internal/license_test.go:16-20 | MIT at `LICENSE` is redistributable |
| Licenses.VectorNoRedistributableLicenseAtRoot | internal/license_test.go:22-26 | MIT only at `bar/LICENSE` is not redistributable |
| Licenses.VectorNoLicense | internal/license_test.go:28-30 | no licenses is not redistributable |
| Licenses.VectorNonRedistributableLicense | internal/license_test.go:31-35 | AGPL-3.0 at `LICENSE` is not redistributable |
| Licenses.VectorMultipleRedistributable | internal/license_test.go:37-42 | BSD-3-Clause at the root plus MIT in `bar/` is redistributable |
| Licenses.VectorNotAllRedistributable | internal/license_test.go:44-50 | AGPL-3.0 alone in `foo/` spoils the set despite compliant `.` and `foo/bar/` |
| Licenses.VectorOneRedistributablePerDirectory | internal/license_test.go:52-59 | AGPL-3.0 next to MIT in `foo/`, with BSD at the root, is redistributable |
| Urls.ConstructModuleURL | internal/frontend/details.go:144-154 | the link starts with `/mod/<module>`, or `/std` for the standard library, and ends with `@<version>` unless the version is latest |
| Urls.ConstructPackageURL | internal/frontend/details.go:156-164 | latest gives `/<pkg>`. A package equal to its module, or in the standard library, gives `/<pkg>@<v>`. Otherwise the link is `/<module>@<v>/` followed by the package path with `<module>/` removed when it is a prefix, or the whole package path when it is not |
| Urls.PackageURLRoundTrip | internal/frontend/details.go:156-164 | a package link parses back to the package and version, and to the module whenever the link names one. It fails exactly when the import-path check rejects the package |
| Urls.LatestPackageURLRoundTrip | internal/frontend/details.go:157-158 | a latest package link parses back to the package with an unknown (or standard-library) module |
| Urls.ShortPackageURLRoundTrip | internal/frontend/details.go:160-161 | a `/<pkg>@<v>` link parses back to the package at that version |
| Urls.LongPackageURLRoundTrip | internal/frontend/details.go:163 | a `/<module>@<v>/<rest>` link parses back to the package with its module known |
| Urls.ModuleURLTrimmed | internal/frontend/details.go:144-154 | removing `/mod` from a module link leaves `/<module>` plus `@<version>` unless latest |
| Urls.ModuleURLRoundTrip | internal/frontend/details.go:144-154 | a module link, after the module handler strips `/mod`, parses back to the module path and version |
| Urls.LatestModulePathResolves | internal/frontend/details.go:358-363 | `/<module>` parses to the module at the latest version |
| Urls.VersionedModulePathResolves | internal/frontend/details.go:365-371 | `/<module>@<v>` parses to the module at that version |
| Handlers.StatusOf | internal/frontend/details.go:198-208 | a DataSource read reports success exactly when found, and NotFound exactly when missing |
| Handlers.LookupPackage | internal/frontend/details.go:78-86 | the package read of the fetch callback; `Handlers.ModuleURLReadsInModule` and `Handlers.OtherURLReadsByPath` state which read each URL form uses |
| Handlers.PackageURLNotStdRoute | internal/frontend/details.go:58 | no package link, such as `/sort` or `/stdlib`, passes the `/std` routing test, whatever its module and version |
| Handlers.BarePathNotStdRoute | internal/frontend/details.go:58 | `/<path>` is not a `/std` route unless the path is `std` |
| Handlers.VersionedPathNotStdRoute | internal/frontend/details.go:58 | `/<path>@<rest>` is not a `/std` route unless the path is `std` |
| Handlers.PackageVersionsFetchFails | internal/frontend/details.go:118-128 | the versions tab is always shown, so a failing versions fetch answers 500 for every package |
| Handlers.ModulePackagesFetchFails | internal/frontend/details.go:298-307 | the module packages tab is always shown, so after the module and its licenses are read, a failing directory fetch answers 500 |
| Handlers.CreateModule | internal/frontend/details.go:540-550 | the module header carries the version info and licenses, links to `constructModuleURL` of the module and version, and is redistributable iff the license rule holds for the licenses |
| Handlers.CreatePackage | internal/frontend/details.go:507-536 | the package header carries the package's path and licenses, links to `constructPackageURL` of the package, module and version, and is redistributable iff the license rule holds for the package's licenses. The embedded module header has the package's module path, version and module link. It holds exactly the root-filtered licenses and is redistributable iff an allowed license lies at the root, which a redistributable package always satisfies |
| Handlers.TabPage | internal/frontend/details.go:118-130 | a 500 exactly when details are needed and their fetch fails; otherwise a page whose details are present iff shown |
| Handlers.ServePackagePage | internal/frontend/details.go:100-142 | either a 500 or a package page, and a 500 exactly when details are shown and the chosen tab's fetcher fails. The page uses a registry tab with the correct default. Details are present iff the package's licenses are redistributable or the tab is always shown, and they come from that tab's fetcher |
| Handlers.HandleModuleDetails | internal/frontend/details.go:262-320 | a path that does not parse is a 400. A non-200 fetch answers with that code and page; a page needs a 200. After a 200, missing module licenses give a 500; otherwise a 500 exactly when details are shown and the chosen tab's fetcher fails, and the page is headed by the module built from the version info and licenses. The tab is a registry tab (readme by default). Details are present iff the module's licenses are redistributable or the tab is always shown |
| Handlers.HandlePackageDetails | internal/frontend/details.go:53-96 | `/` alone gives the index. `/std` routes go to the module handler. A parse failure is a 400. `C` alone redirects. Otherwise a 200 fetch serves the package page of the package found at the requested version, a 404 and only a 404 becomes the directory page, and any other code answers with that code and the fetch's page |
| Handlers.ExcludedPackageLooksMissing | internal/frontend/details.go:53-96 | an excluded package gets the same response as a package with no version: the directory page |
| Handlers.StdModuleURLRouted | internal/frontend/details.go:58-60 | a standard-library module link at latest or at a `v` version reaches the module handler |
| Handlers.StdModuleURLIsStdRoute | internal/frontend/details.go:58 | such a link matches the `/std` routing test |
| Handlers.ModuleLinkServesModule | internal/frontend/details.go:262-320 | following the link a module header carries, for an existing module, serves its page, headed by the module built from the version info and licenses read for it; it is a 500 exactly when the chosen tab's fetcher fails |
| Handlers.PackageLinkServesPackage | internal/frontend/details.go:53-96 | following the link a package header carries, for an existing package, serves its page, headed by the package read for it; it is a 500 exactly when the chosen tab's fetcher fails |
| Handlers.OtherVersionsPageServed | internal/frontend/details.go:76-92 | a package that exists at latest but not at the requested version is answered with a 303 whose page links to the package's versions tab |
| Handlers.DefaultPackageTabServed | internal/frontend/details.go:108-130 | a redistributable package asked for an unknown tab is always served its documentation tab, whose fetcher is the documentation fetcher and cannot fail |
| Handlers.ModuleLicensesTabServed | internal/frontend/details.go:324-337 | once a module and its licenses are read, the licenses tab is always served, and any details on it come from the module-licenses case, which cannot fail |
| Handlers.ModuleURLReadsInModule | internal/frontend/details.go:78-86 | `/<module>@<version>/<rest>` outside the standard library reads the package with `GetPackageInModuleVersion(<module>/<rest>, <module>, …)` |
| Handlers.OtherURLReadsByPath | internal/frontend/details.go:78-86 | a URL without `@`, or a standard-library package, reads the package with `GetPackage` by its path |

## Left out

- `internal/frontend/controller.go` is not part of this model. It covers template loading, template execution and response writing, which are I/O.
- HTTP plumbing (`ResponseWriter`, `http.Redirect`, `serveErrorPage`, `servePage`, `staticPageHandler`) and logging. Only the decision is modelled, as a `Response` value.
- `legacyHandlePackageDetails`: it is a redirect shim with no decision in it.
- DataSource reads and the per-tab detail fetchers are oracles. A fetcher's outcome is one boolean (`detailsAvailable`). The documentation fetcher and the module-licenses case cannot fail, as in the source.
- `module.CheckImportPath`, `semver.IsValid` and the license allow-list are uninterpreted predicates. `suggestedSearch` is reduced to whether a package-namespace error page carries a suggestion.
- Error-page wording is not modelled. Only which page is present, and its version, path and versions link, are kept.
- `effectiveName`, `packageTitle`, `moduleTitle` and the package header's `Suffix` and `Synopsis` fields are left out. They are presentation text computed through `module.SplitPathVersion`.
- `elapsedTime` reads the wall clock. `breadcrumbPath` assembles HTML. `fileSource` needs `stdlib.TagForVersion`. All three are left out.
- `transformLicenseMetadata` and `license.ToMetadatas` are field copies. The headers carry the license records directly.
- Licenses.Dir: it is the prefix before the last `/`, or `.`, which is not Go's full `path.Dir` with `Clean`. For example, `./LICENSE` has the directory `.` in this model, but paths with `..` or doubled slashes are not cleaned.
- The license rule's implementation (`licensesAreRedistributable`) is not part of this model. The rule is defined so that all seven test vectors hold: the root and every directory that holds a license must each hold an allowed one.
- Handlers.PackageIsRedistributable: `pkg.IsRedistributable()` belongs to the internal package, which is not part of this model. It is taken to be the license rule over the package's own licenses, already narrowed to those that apply to the package's directory.
- Licenses.AreRedistributable: `license.AreRedistributable` is not part of this model. It is taken to be the rule that the test vectors fix.
- Strings are modelled as `seq<char>` rather than Go's byte strings. Every separator the handlers look for (`/`, `@`, `.`) is ASCII, so byte and character positions agree for them.
- Handlers.CreatePackage: the nil-argument error of `createPackage` cannot occur here, because the handler passes a package it found, so the 500 for it is not modelled.
- PathResolver.ParseDetailsURLPath: on failure Go returns three empty strings with the error. The model returns `Failure(MalformedPath(pkgPath))` instead.
- A `Known` module path whose text equals the `<unknown>` sentinel string would be read by `GetPackage` in Go. The model keeps the datatype distinction, and such a path cannot pass the import-path check anyway, because `<` is not a valid import-path character.
- The lookup callback's captured variable: Go's closure stores the package from the last `get` call. A 200 arises only from the first call, so the model reads the package at the requested version.

=== FILE: fetch.dfy ===
/**
 * fetchPackageOrModule (internal/frontend/details.go): validate the version,
 * consult the exclusion list, look the entity up, and when a specific version
 * is missing look up the latest version once to offer a better error page.
 */
module Fetch {
  import opened Wrappers
  import opened PathResolver

  const StatusOK := 200
  const StatusSeeOther := 303
  const StatusBadRequest := 400
  const StatusNotFound := 404
  const StatusInternalServerError := 500

  /** Which handler is asking: the package pages ("pkg") or the module pages ("mod"). */
  datatype Namespace = Pkg | Mod

  /** The outcome of DataSource.IsExcluded. */
  datatype Exclusion = ExclusionError | Excluded | NotExcluded

  /** The error the caller's `get` function returns for one version. */
  datatype Status = Ok | NotFound | OtherError

  /** The error pages this step can produce; only their content fields are kept, not the wording. */
  datatype ErrorPage =
    | InvalidVersionPage(version: string, suggestsSearch: bool)
    | OtherVersionsPage(namespace: Namespace, path: string, version: string, versionsURL: string)

  datatype FetchResult = FetchResult(code: int, page: Option<ErrorPage>)

  /** The link to the versions tab of the entity, offered when another version exists. */
  function VersionsURL(ns: Namespace, path: string): (url: string)
    ensures ns == Pkg ==> url == "/" + path + "?tab=versions"
    ensures ns == Mod ==> url == "/mod/" + path + "?tab=versions"
  {
    (if ns == Mod then "/mod/" else "/") + path + "?tab=versions"
  }

  /** Whether the requested version may be looked up at all. */
  predicate VersionAccepted(version: string, semverIsValid: string -> bool) {
    version == LatestVersion || semverIsValid(version)
  }

  /**
   * fetchPackageOrModule. The caller's lookup is `get`; the exclusion list
   * and semver.IsValid are the oracles `isExcluded` and `semverIsValid`.
   */
  function FetchPackageOrModule(ns: Namespace, path: string, version: string,
                                semverIsValid: string -> bool,
                                isExcluded: string -> Exclusion,
                                get: string -> Status): (r: FetchResult)
    ensures r.code in {StatusOK, StatusSeeOther, StatusBadRequest, StatusNotFound, StatusInternalServerError}
    ensures r.page.Some? <==> r.code == StatusBadRequest || r.code == StatusSeeOther
    ensures r.code == StatusBadRequest <==> !VersionAccepted(version, semverIsValid)
    ensures r.code == StatusBadRequest ==> r.page == Some(InvalidVersionPage(version, ns == Pkg))
    ensures r.code == StatusOK <==>
              VersionAccepted(version, semverIsValid) && isExcluded(path) == NotExcluded && get(version) == Ok
    ensures r.code == StatusInternalServerError <==>
              && VersionAccepted(version, semverIsValid)
              && (isExcluded(path) == ExclusionError || (isExcluded(path) == NotExcluded && get(version) == OtherError))
    ensures r.code == StatusSeeOther <==>
              && VersionAccepted(version, semverIsValid) && version != LatestVersion
              && isExcluded(path) == NotExcluded
              && get(version) == NotFound && get(LatestVersion) == Ok
    ensures r.code == StatusSeeOther ==>
              r.page == Some(OtherVersionsPage(ns, path, version, VersionsURL(ns, path)))
  {
    if version != LatestVersion && !semverIsValid(version) then
      FetchResult(StatusBadRequest, Some(InvalidVersionPage(version, ns == Pkg)))
    else
      match isExcluded(path)
      case ExclusionError => FetchResult(StatusInternalServerError, None)
      // Not found: do not reveal that the path is excluded.
      case Excluded => FetchResult(StatusNotFound, None)
      case NotExcluded =>
        match get(version)
        case Ok => FetchResult(StatusOK, None)
        case OtherError => FetchResult(StatusInternalServerError, None)
        case NotFound =>
          if version == LatestVersion then FetchResult(StatusNotFound, None)
          // Whatever went wrong with the latest version, report the original miss.
          else if get(LatestVersion) != Ok then FetchResult(StatusNotFound, None)
          else FetchResult(StatusSeeOther, Some(OtherVersionsPage(ns, path, version, VersionsURL(ns, path))))
  }

  /**
   * An excluded path is reported exactly like a path that is not excluded
   * but has no version at all.
   */
  lemma ExcludedLooksAbsent(ns: Namespace, path: string, version: string, semverIsValid: string -> bool,
                            isExcluded: string -> Exclusion, get: string -> Status,
                            isExcluded': string -> Exclusion, absent: string -> Status)
    requires isExcluded(path) == Excluded && isExcluded'(path) == NotExcluded
    requires absent(version) == NotFound && absent(LatestVersion) == NotFound
    ensures FetchPackageOrModule(ns, path, version, semverIsValid, isExcluded, get)
         == FetchPackageOrModule(ns, path, version, semverIsValid, isExcluded', absent)
  {
  }

  /** An invalid version or an excluded path decides the result without any lookup. */
  lemma LookupIrrelevantBeforeLookup(ns: Namespace, path: string, version: string, semverIsValid: string -> bool,
                                     isExcluded: string -> Exclusion, get: string -> Status, get': string -> Status)
    requires !VersionAccepted(version, semverIsValid) || isExcluded(path) != NotExcluded
    ensures FetchPackageOrModule(ns, path, version, semverIsValid, isExcluded, get)
         == FetchPackageOrModule(ns, path, version, semverIsValid, isExcluded, get')
  {
  }

  /** One query the fetch step puts to its collaborators. */
  datatype Query = CheckExclusion(path: string) | Lookup(version: string)

  /** The states of the fetch-with-fallback policy. */
  datatype Phase =
    | Validating
    | CheckingExclusion
    | LookingUp
    | RetryingLatest
    | Finished(result: FetchResult)

  /** An upper bound on the number of steps left from a phase. */
  function StepsLeft(phase: Phase): nat {
    match phase
    case Validating => 4
    case CheckingExclusion => 3
    case LookingUp => 2
    case RetryingLatest => 1
    case Finished(_) => 0
  }

  /** The query a phase puts, if any. */
  function QueryOf(phase: Phase, path: string, version: string): Option<Query> {
    match phase
    case CheckingExclusion => Some(CheckExclusion(path))
    case LookingUp => Some(Lookup(version))
    case RetryingLatest => Some(Lookup(LatestVersion))
    case _ => None
  }

  /** What a collaborator answers to a query. */
  datatype Answer = ExclusionAnswer(exclusion: Exclusion) | LookupAnswer(status: Status)

  /** Puts a query to the exclusion list or to `get`; the only place the policy reaches them. */
  function Ask(q: Query, isExcluded: string -> Exclusion, get: string -> Status): (a: Answer)
    ensures a.ExclusionAnswer? <==> q.CheckExclusion?
  {
    match q
    case CheckExclusion(p) => ExclusionAnswer(isExcluded(p))
    case Lookup(v) => LookupAnswer(get(v))
  }

  /** An answer fits a phase when it answers the query of that phase, and there is none for a phase without one. */
  predicate Fits(phase: Phase, path: string, version: string, answer: Option<Answer>) {
    match QueryOf(phase, path, version)
    case None => answer == None
    case Some(q) => answer.Some? && (answer.value.ExclusionAnswer? <==> q.CheckExclusion?)
  }

  /** One transition of the policy, given the answer to the phase's query. */
  function Step(phase: Phase, ns: Namespace, path: string, version: string,
                semverIsValid: string -> bool, answer: Option<Answer>): (next: Phase)
    requires !phase.Finished? && Fits(phase, path, version, answer)
    ensures StepsLeft(next) < StepsLeft(phase)
  {
    match phase
    case Validating =>
      if VersionAccepted(version, semverIsValid) then CheckingExclusion
      else Finished(FetchResult(StatusBadRequest, Some(InvalidVersionPage(version, ns == Pkg))))
    case CheckingExclusion =>
      (match answer.value.exclusion
       case ExclusionError => Finished(FetchResult(StatusInternalServerError, None))
       case Excluded => Finished(FetchResult(StatusNotFound, None))
       case NotExcluded => LookingUp)
    case LookingUp =>
      (match answer.value.status
       case Ok => Finished(FetchResult(StatusOK, None))
       case OtherError => Finished(FetchResult(StatusInternalServerError, None))
       case NotFound =>
         if version == LatestVersion then Finished(FetchResult(StatusNotFound, None)) else RetryingLatest)
    case RetryingLatest =>
      if answer.value.status == Ok
      then Finished(FetchResult(StatusSeeOther, Some(OtherVersionsPage(ns, path, version, VersionsURL(ns, path)))))
      else Finished(FetchResult(StatusNotFound, None))
  }

  /**
   * Runs the policy as a state machine. The exclusion list and `get` are
   * reached only through Ask, on the query just recorded in the trace. The
   * result is that of FetchPackageOrModule, `get` is asked at most twice,
   * and a second lookup is always for the latest version after the
   * requested one was not found.
   */
  method RunFetch(ns: Namespace, path: string, version: string,
                  semverIsValid: string -> bool,
                  isExcluded: string -> Exclusion,
                  get: string -> Status) returns (r: FetchResult, trace: seq<Query>)
    ensures r == FetchPackageOrModule(ns, path, version, semverIsValid, isExcluded, get)
    ensures |trace| <= 3
    ensures trace == [] <==> !VersionAccepted(version, semverIsValid)
    ensures |trace| >= 1 ==> trace[0] == CheckExclusion(path)
    ensures |trace| >= 2 <==> VersionAccepted(version, semverIsValid) && isExcluded(path) == NotExcluded
    ensures |trace| >= 2 ==> trace[1] == Lookup(version)
    ensures |trace| == 3 ==> version != LatestVersion && get(version) == NotFound && trace[2] == Lookup(LatestVersion)
  {
    var phase := Validating;
    trace := [];
    while !phase.Finished?
      invariant phase == Validating ==> trace == []
      invariant phase == CheckingExclusion ==> trace == [] && VersionAccepted(version, semverIsValid)
      invariant phase == LookingUp ==>
                  && trace == [CheckExclusion(path)]
                  && VersionAccepted(version, semverIsValid) && isExcluded(path) == NotExcluded
      invariant phase == RetryingLatest ==>
                  && trace == [CheckExclusion(path), Lookup(version)]
                  && VersionAccepted(version, semverIsValid) && isExcluded(path) == NotExcluded
                  && version != LatestVersion && get(version) == NotFound
      invariant phase.Finished? ==>
                  && phase.result == FetchPackageOrModule(ns, path, version, semverIsValid, isExcluded, get)
                  && |trace| <= 3
                  && (trace == [] <==> !VersionAccepted(version, semverIsValid))
                  && (|trace| >= 1 ==> trace[0] == CheckExclusion(path))
                  && (|trace| >= 2 <==> VersionAccepted(version, semverIsValid) && isExcluded(path) == NotExcluded)
                  && (|trace| >= 2 ==> trace[1] == Lookup(version))
                  && (|trace| == 3 ==> version != LatestVersion && get(version) == NotFound
                                       && trace[2] == Lookup(LatestVersion))
      decreases StepsLeft(phase)
    {
      var q := QueryOf(phase, path, version);
      var answer: Option<Answer> := None;
      if q.Some? {
        trace := trace + [q.value];
        answer := Some(Ask(q.value, isExcluded, get));
      }
      phase := Step(phase, ns, path, version, semverIsValid, answer);
    }
    r := phase.result;
  }
}

=== FILE: handlers.dfy ===
/**
 * The request-level decisions of internal/frontend/details.go:
 * handlePackageDetails' routing, servePackagePage, handleModuleDetails and
 * the page headers of createPackage and createModule. Responses are values;
 * writing them, rendering templates and logging are not modelled.
 */
module Handlers {
  import opened Wrappers
  import opened Strings
  import opened PathResolver
  import opened Fetch
  import opened Tabs
  import opened Licenses
  import opened Urls

  /** The fields of internal.VersionInfo the handlers read. */
  datatype VersionInfo = VersionInfo(modulePath: string, version: string)

  /** The fields of internal.VersionedPackage the handlers read. */
  datatype VersionedPackage = VersionedPackage(path: string, licenses: seq<LicenseRecord>, info: VersionInfo)

  /** pkg.IsRedistributable(): the license rule over the package's own licenses. */
  predicate PackageIsRedistributable(pkg: VersionedPackage, allowed: string -> bool) {
    AreRedistributable(pkg.licenses, allowed)
  }

  /** The result of one DataSource read: the value, derrors.NotFound, or any other error. */
  datatype Lookup<T> = Found(value: T) | Missing | Failed

  /** The error a `get` callback passes on for a DataSource read. */
  function StatusOf<T>(l: Lookup<T>): (s: Status)
    ensures s == Ok <==> l.Found?
    ensures s == NotFound <==> l.Missing?
  {
    match l
    case Found(_) => Ok
    case Missing => NotFound
    case Failed => OtherError
  }

  /**
   * The DataSource, as oracles. `detailsAvailable` says whether a per-tab
   * fetcher that can fail succeeds.
   */
  datatype DataSource = DataSource(
    isExcluded: string -> Exclusion,
    getPackage: (string, string) -> Lookup<VersionedPackage>,
    getPackageInModuleVersion: (string, string, string) -> Lookup<VersionedPackage>,
    getVersionInfo: (string, string) -> Lookup<VersionInfo>,
    getModuleLicenses: (string, string) -> Option<seq<LicenseRecord>>,
    detailsAvailable: DetailsFetcher -> bool)

  /** The foreign checks: module.CheckImportPath, semver.IsValid and the license allow-list. */
  datatype Checks = Checks(checkImportPath: string -> bool, semverIsValid: string -> bool,
                           licenseAllowed: string -> bool)

  datatype ModuleHeader = ModuleHeader(version: string, path: string, isRedistributable: bool,
                                       licenses: seq<LicenseRecord>, url: string)
  datatype PackageHeader = PackageHeader(path: string, isRedistributable: bool, licenses: seq<LicenseRecord>,
                                         moduleHeader: ModuleHeader, url: string)
  datatype Header = PackageHeaderOf(pkg: PackageHeader) | ModuleHeaderOf(mod: ModuleHeader)

  /** DetailsPage: the chosen tab, whether its contents are shown, which fetcher produced them. */
  datatype DetailsPage = DetailsPage(namespace: Namespace, settings: TabSettings, canShowDetails: bool,
                                     details: Option<DetailsFetcher>, tabs: seq<TabSettings>, header: Header)

  /** What a request is answered with. */
  datatype Response =
    | IndexPage
    | CgoRedirect
    | ErrorResponse(code: int, errorPage: Option<ErrorPage>)
    | DirectoryPage(pkgPath: string, version: string)
    | Details(page: DetailsPage)

  /** createModule: the module header, redistributable by the license rule over the given licenses. */
  function CreateModule(vi: VersionInfo, lics: seq<LicenseRecord>, allowed: string -> bool): (h: ModuleHeader)
    ensures h.path == vi.modulePath && h.version == vi.version && h.licenses == lics
    ensures h.isRedistributable <==> AreRedistributable(lics, allowed)
    ensures h.url == ConstructModuleURL(vi.modulePath, vi.version)
  {
    ModuleHeader(vi.version, vi.modulePath, AreRedistributable(lics, allowed), lics,
                 ConstructModuleURL(vi.modulePath, vi.version))
  }

  /**
   * createPackage: the package header, whose module header only sees the
   * licenses in the root directory, so it is redistributable exactly when
   * an allowed license sits at the root.
   */
  function CreatePackage(pkg: VersionedPackage, allowed: string -> bool): (h: PackageHeader)
    ensures h.path == pkg.path && h.licenses == pkg.licenses
    ensures h.url == ConstructPackageURL(pkg.path, pkg.info.modulePath, pkg.info.version)
    ensures h.isRedistributable <==> AreRedistributable(pkg.licenses, allowed)
    ensures h.moduleHeader.path == pkg.info.modulePath && h.moduleHeader.version == pkg.info.version
    ensures h.moduleHeader.url == ConstructModuleURL(pkg.info.modulePath, pkg.info.version)
    ensures h.moduleHeader.licenses == RootLicenses(pkg.licenses)
    ensures forall x :: x in h.moduleHeader.licenses <==> x in pkg.licenses && Dir(x.filePath) == "."
    ensures h.moduleHeader.isRedistributable <==> Compliant(pkg.licenses, ".", allowed)
    ensures h.isRedistributable ==> h.moduleHeader.isRedistributable
  {
    RootLicensesVerdict(pkg.licenses, allowed);
    PackageHeader(pkg.path, PackageIsRedistributable(pkg, allowed), pkg.licenses,
                  CreateModule(pkg.info, RootLicenses(pkg.licenses), allowed),
                  ConstructPackageURL(pkg.path, pkg.info.modulePath, pkg.info.version))
  }

  /** Whether a per-tab fetcher succeeds; the documentation and module-licenses fetchers cannot fail. */
  predicate FetcherSucceeds(ds: DataSource, f: DetailsFetcher) {
    f == FetchDocumentation || f == FetchModuleLicenses || ds.detailsAvailable(f)
  }

  /** The page for a chosen tab, or a 500 when the fetcher it needs fails. */
  function TabPage(ns: Namespace, choice: TabChoice, tabs: seq<TabSettings>, header: Header, ds: DataSource): (r: Response)
    ensures r.ErrorResponse? <==> choice.canShowDetails && !FetcherSucceeds(ds, choice.fetcher)
    ensures r.ErrorResponse? ==> r == ErrorResponse(StatusInternalServerError, None)
    ensures r.Details? ==> r.page.settings == choice.settings && r.page.canShowDetails == choice.canShowDetails
    ensures r.Details? ==> (r.page.details.Some? <==> choice.canShowDetails)
    ensures r.Details? && r.page.details.Some? ==> r.page.details.value == choice.fetcher
  {
    if choice.canShowDetails && !FetcherSucceeds(ds, choice.fetcher) then
      ErrorResponse(StatusInternalServerError, None)
    else
      Details(DetailsPage(ns, choice.settings, choice.canShowDetails,
                          if choice.canShowDetails then Some(choice.fetcher) else None, tabs, header))
  }

  /**
   * servePackagePage: pick the tab (doc or subdirectories by default), fetch
   * its contents only when the package is redistributable or the tab is
   * always shown, and answer 500 when that fetch fails.
   */
  function ServePackagePage(pkg: VersionedPackage, tab: string, checks: Checks, ds: DataSource): (r: Response)
    ensures r.Details? || r == ErrorResponse(StatusInternalServerError, None)
    ensures var choice := SelectPackageTab(tab, AreRedistributable(pkg.licenses, checks.licenseAllowed));
            r.ErrorResponse? <==> choice.canShowDetails && !FetcherSucceeds(ds, choice.fetcher)
    ensures r.Details? ==> r.page.namespace == Pkg && r.page.tabs == PackageTabSettings
    ensures r.Details? ==> r.page.settings in PackageTabSettings
    ensures r.Details? && tab in PackageTabNames ==> r.page.settings.name == tab
    ensures r.Details? && tab !in PackageTabNames ==>
              r.page.settings.name
              == (if AreRedistributable(pkg.licenses, checks.licenseAllowed) then "doc" else "subdirectories")
    ensures r.Details? ==>
              (r.page.canShowDetails <==>
                 AreRedistributable(pkg.licenses, checks.licenseAllowed)
                 || r.page.settings.name in AlwaysShownPackageTabs)
    ensures r.Details? ==> (r.page.details.Some? <==> r.page.canShowDetails)
    ensures r.Details? && r.page.details.Some? ==>
              FetchDetailsForPackage(r.page.settings.name) == Success(r.page.details.value)
    ensures r.Details? ==> r.page.header == PackageHeaderOf(CreatePackage(pkg, checks.licenseAllowed))
  {
    var header := CreatePackage(pkg, checks.licenseAllowed);
    var choice := SelectPackageTab(tab, PackageIsRedistributable(pkg, checks.licenseAllowed));
    TabPage(Pkg, choice, PackageTabSettings, PackageHeaderOf(header), ds)
  }

  /** The package read of handlePackageDetails: by module when the URL named one, else by path. */
  function LookupPackage(ds: DataSource, res: Resolved, version: string): Lookup<VersionedPackage> {
    match res.modulePath
    case Known(m) => ds.getPackageInModuleVersion(res.pkgPath, m, version)
    case _ => ds.getPackage(res.pkgPath, version)
  }

  /** The `get` callback handlePackageDetails gives the fetch. */
  function PackageGetter(ds: DataSource, res: Resolved): string -> Status {
    (ver: string) => StatusOf(LookupPackage(ds, res, ver))
  }

  /** The `get` callback handleModuleDetails gives the fetch. */
  function ModuleGetter(ds: DataSource, path: string): string -> Status {
    (ver: string) => StatusOf(ds.getVersionInfo(path, ver))
  }

  /** The URL paths handed to the module handler as standard-library module pages. */
  predicate IsStdRoute(urlPath: string) {
    urlPath == "/std" || "/std@v" <= urlPath
  }

  /**
   * handleModuleDetails: parse the path without "/mod", fetch the module
   * with the latest-version fallback, read its licenses, pick the tab
   * (readme by default) and fetch its contents when the module is
   * redistributable or the tab is always shown.
   */
  function HandleModuleDetails(urlPath: string, tab: string, checks: Checks, ds: DataSource): (r: Response)
    ensures r.ErrorResponse? || r.Details?
    ensures match ParseDetailsURLPath(TrimPrefix(urlPath, "/mod"), checks.checkImportPath)
            case Failure(_) => r == ErrorResponse(StatusBadRequest, None)
            case Success(res) =>
              var f := FetchPackageOrModule(Mod, res.pkgPath, res.version, checks.semverIsValid, ds.isExcluded,
                                            ModuleGetter(ds, res.pkgPath));
              && (f.code != StatusOK ==> r == ErrorResponse(f.code, f.page))
              && (r.Details? ==> f.code == StatusOK)
              && (f.code == StatusOK ==>
                    && ds.getVersionInfo(res.pkgPath, res.version).Found?
                    && var vi := ds.getVersionInfo(res.pkgPath, res.version).value;
                       match ds.getModuleLicenses(vi.modulePath, vi.version)
                       case None => r == ErrorResponse(StatusInternalServerError, None)
                       case Some(lics) =>
                         var choice := SelectModuleTab(tab, AreRedistributable(lics, checks.licenseAllowed));
                         && (r.ErrorResponse? <==> choice.canShowDetails && !FetcherSucceeds(ds, choice.fetcher))
                         && (r.ErrorResponse? ==> r == ErrorResponse(StatusInternalServerError, None))
                         && (r.Details? ==> r.page.header == ModuleHeaderOf(CreateModule(vi, lics, checks.licenseAllowed))))
    ensures r.ErrorResponse? ==> r.code != StatusOK
    ensures r.Details? ==> r.page.namespace == Mod && r.page.tabs == ModuleTabSettings
    ensures r.Details? ==> r.page.settings in ModuleTabSettings
    ensures r.Details? && tab in ModuleTabNames ==> r.page.settings.name == tab
    ensures r.Details? && tab !in ModuleTabNames ==> r.page.settings.name == "readme"
    ensures r.Details? ==> r.page.header.ModuleHeaderOf?
    ensures r.Details? ==>
              (r.page.canShowDetails <==>
                 AreRedistributable(r.page.header.mod.licenses, checks.licenseAllowed)
                 || r.page.settings.name in AlwaysShownModuleTabs)
    ensures r.Details? ==> (r.page.details.Some? <==> r.page.canShowDetails)
    ensures r.Details? && r.page.details.Some? ==>
              FetchDetailsForModule(r.page.settings.name) == Success(r.page.details.value)
  {
    match ParseDetailsURLPath(TrimPrefix(urlPath, "/mod"), checks.checkImportPath)
    case Failure(_) => ErrorResponse(StatusBadRequest, None)
    case Success(res) =>
      var f := FetchPackageOrModule(Mod, res.pkgPath, res.version, checks.semverIsValid, ds.isExcluded,
                                    ModuleGetter(ds, res.pkgPath));
      if f.code != StatusOK then ErrorResponse(f.code, f.page)
      else
        assert StatusOf(ds.getVersionInfo(res.pkgPath, res.version)) == Ok;
        var vi := ds.getVersionInfo(res.pkgPath, res.version).value;
        match ds.getModuleLicenses(vi.modulePath, vi.version)
        case None => ErrorResponse(StatusInternalServerError, None)
        case Some(lics) =>
          var header := CreateModule(vi, lics, checks.licenseAllowed);
          var choice := SelectModuleTab(tab, header.isRedistributable);
          TabPage(Mod, choice, ModuleTabSettings, ModuleHeaderOf(header), ds)
  }

  /**
   * handlePackageDetails: "/" is the index page, the standard-library module
   * routes go to the module handler, a path that does not parse is a 400,
   * package "C" redirects to the cgo article, a found package gets its page,
   * a 404 becomes the directory page and any other code an error page.
   */
  function HandlePackageDetails(urlPath: string, tab: string, checks: Checks, ds: DataSource): (r: Response)
    ensures r.IndexPage? <==> urlPath == "/"
    ensures urlPath != "/" && IsStdRoute(urlPath) ==> r == HandleModuleDetails(urlPath, tab, checks, ds)
    ensures urlPath != "/" && !IsStdRoute(urlPath) ==>
              match ParseDetailsURLPath(urlPath, checks.checkImportPath)
              case Failure(_) => r == ErrorResponse(StatusBadRequest, None)
              case Success(res) =>
                var f := FetchPackageOrModule(Pkg, res.pkgPath, res.version, checks.semverIsValid, ds.isExcluded,
                                              PackageGetter(ds, res));
                && (r.CgoRedirect? <==> res.pkgPath == "C")
                && (res.pkgPath != "C" && f.code == StatusOK ==>
                      && LookupPackage(ds, res, res.version).Found?
                      && r == ServePackagePage(LookupPackage(ds, res, res.version).value, tab, checks, ds))
                && (res.pkgPath != "C" ==> (r.DirectoryPage? <==> f.code == StatusNotFound))
                && (r.DirectoryPage? ==> r == DirectoryPage(res.pkgPath, res.version))
                && (res.pkgPath != "C" && f.code != StatusOK && f.code != StatusNotFound ==>
                      r == ErrorResponse(f.code, f.page))
                && (r.ErrorResponse? ==> r.code != StatusOK && r.code != StatusNotFound)
                && (r.Details? ==> LookupPackage(ds, res, res.version).Found? && r.page.namespace == Pkg)
    ensures r.CgoRedirect? ==> !IsStdRoute(urlPath)
  {
    if urlPath == "/" then IndexPage
    else if IsStdRoute(urlPath) then HandleModuleDetails(urlPath, tab, checks, ds)
    else
      match ParseDetailsURLPath(urlPath, checks.checkImportPath)
      case Failure(_) => ErrorResponse(StatusBadRequest, None)
      case Success(res) =>
        if res.pkgPath == "C" then CgoRedirect
        else
          var f := FetchPackageOrModule(Pkg, res.pkgPath, res.version, checks.semverIsValid, ds.isExcluded,
                                        PackageGetter(ds, res));
          if f.code == StatusOK then
            assert StatusOf(LookupPackage(ds, res, res.version)) == Ok;
            ServePackagePage(LookupPackage(ds, res, res.version).value, tab, checks, ds)
          else if f.code != StatusNotFound then ErrorResponse(f.code, f.page)
          else DirectoryPage(res.pkgPath, res.version)
  }

  /**
   * An excluded package gets the same answer as a package with no version
   * at all: the directory page. Nothing in the response tells them apart.
   */
  lemma ExcludedPackageLooksMissing(urlPath: string, tab: string, checks: Checks, ds: DataSource, ds': DataSource)
    requires urlPath != "/" && !IsStdRoute(urlPath)
    requires ParseDetailsURLPath(urlPath, checks.checkImportPath).Success?
    requires var res := ParseDetailsURLPath(urlPath, checks.checkImportPath).value;
             && VersionAccepted(res.version, checks.semverIsValid)
             && ds.isExcluded(res.pkgPath) == Excluded
             && ds'.isExcluded(res.pkgPath) == NotExcluded
             && LookupPackage(ds', res, res.version).Missing?
             && LookupPackage(ds', res, LatestVersion).Missing?
    ensures HandlePackageDetails(urlPath, tab, checks, ds) == HandlePackageDetails(urlPath, tab, checks, ds')
    ensures HandlePackageDetails(urlPath, tab, checks, ds).DirectoryPage? || HandlePackageDetails(urlPath, tab, checks, ds).CgoRedirect?
  {
  }

  /**
   * The header's link to a standard-library module, at the latest version
   * or at a "v"-prefixed version, is routed to the module handler.
   */
  lemma StdModuleURLRouted(version: string, tab: string, checks: Checks, ds: DataSource)
    requires version == LatestVersion || (|version| > 0 && version[0] == 'v')
    ensures var url := ConstructModuleURL(StdlibModulePath, version);
            HandlePackageDetails(url, tab, checks, ds) == HandleModuleDetails(url, tab, checks, ds)
  {
    var url := ConstructModuleURL(StdlibModulePath, version);
    StdModuleURLIsStdRoute(version);
    assert url != "/";
  }

  lemma StdModuleURLIsStdRoute(version: string)
    requires version == LatestVersion || (|version| > 0 && version[0] == 'v')
    ensures IsStdRoute(ConstructModuleURL(StdlibModulePath, version))
  {
    var url := ConstructModuleURL(StdlibModulePath, version);
    if version != LatestVersion {
      assert url == "/std@" + version;
      assert url[..6] == "/std@v";
    }
  }

  /**
   * Following the link of a module header, for a module that exists, serves
   * that module's page, headed by the module's own version information and
   * licenses; the answer is a 500 exactly when the chosen tab's fetch fails.
   */
  lemma {:induction false} ModuleLinkServesModule(vi: VersionInfo, lics: seq<LicenseRecord>, tab: string,
                                                 checks: Checks, ds: DataSource)
    requires SlashTrimmed(vi.modulePath) && '@' !in vi.modulePath && '/' !in vi.version
    requires checks.checkImportPath(vi.modulePath) && VersionAccepted(vi.version, checks.semverIsValid)
    requires ds.isExcluded(vi.modulePath) == NotExcluded
    requires ds.getVersionInfo(vi.modulePath, vi.version).Found?
    requires var found := ds.getVersionInfo(vi.modulePath, vi.version).value;
             ds.getModuleLicenses(found.modulePath, found.version).Some?
    ensures var r := HandleModuleDetails(CreateModule(vi, lics, checks.licenseAllowed).url, tab, checks, ds);
            var found := ds.getVersionInfo(vi.modulePath, vi.version).value;
            var foundLics := ds.getModuleLicenses(found.modulePath, found.version).value;
            var choice := SelectModuleTab(tab, AreRedistributable(foundLics, checks.licenseAllowed));
            && (r.Details? || r == ErrorResponse(StatusInternalServerError, None))
            && (r.ErrorResponse? <==> choice.canShowDetails && !FetcherSucceeds(ds, choice.fetcher))
            && (r.Details? ==> r.page.header == ModuleHeaderOf(CreateModule(found, foundLics, checks.licenseAllowed)))
  {
    ModuleURLRoundTrip(vi.modulePath, vi.version, checks.checkImportPath);
  }

  /**
   * Following the link of a package header, for a package that exists,
   * serves that package's page, headed by the package's own header; the
   * answer is a 500 exactly when the chosen tab's fetch fails.
   */
  lemma {:induction false} PackageLinkServesPackage(src: VersionedPackage, tab: string, checks: Checks, ds: DataSource)
    requires var pkgPath, modulePath, version := src.path, src.info.modulePath, src.info.version;
             && SlashTrimmed(pkgPath) && SlashTrimmed(modulePath) && pkgPath != "" && pkgPath != "C"
             && '@' !in pkgPath && '@' !in modulePath && '/' !in version
             && (pkgPath == modulePath || modulePath == StdlibModulePath || modulePath + "/" <= pkgPath)
             && pkgPath != StdlibModulePath
             && checks.checkImportPath(pkgPath) && VersionAccepted(version, checks.semverIsValid)
             && ds.isExcluded(pkgPath) == NotExcluded
             && LookupPackage(ds, Resolved(pkgPath, ExpectedModulePath(pkgPath, modulePath, version), version),
                              version).Found?
    ensures var r := HandlePackageDetails(CreatePackage(src, checks.licenseAllowed).url, tab, checks, ds);
            var expected := Resolved(src.path, ExpectedModulePath(src.path, src.info.modulePath, src.info.version),
                                     src.info.version);
            var pkg := LookupPackage(ds, expected, src.info.version).value;
            var choice := SelectPackageTab(tab, AreRedistributable(pkg.licenses, checks.licenseAllowed));
            && (r.Details? || r == ErrorResponse(StatusInternalServerError, None))
            && (r.ErrorResponse? <==> choice.canShowDetails && !FetcherSucceeds(ds, choice.fetcher))
            && (r.Details? ==> r.page.header == PackageHeaderOf(CreatePackage(pkg, checks.licenseAllowed)))
  {
    var pkgPath, modulePath, version := src.path, src.info.modulePath, src.info.version;
    var url := CreatePackage(src, checks.licenseAllowed).url;
    assert url == ConstructPackageURL(pkgPath, modulePath, version);
    var expected := Resolved(pkgPath, ExpectedModulePath(pkgPath, modulePath, version), version);
    PackageURLNotStdRoute(pkgPath, modulePath, version);
    PackageURLRoundTrip(pkgPath, modulePath, version, checks.checkImportPath);
    assert ParseDetailsURLPath(url, checks.checkImportPath) == Success(expected);
    assert url != "/" by { assert |url| > 1; }
    var get := PackageGetter(ds, expected);
    assert get(version) == Ok;
    assert FetchPackageOrModule(Pkg, pkgPath, version, checks.semverIsValid, ds.isExcluded, get).code == StatusOK;
    var pkg := LookupPackage(ds, expected, version).value;
    assert HandlePackageDetails(url, tab, checks, ds) == ServePackagePage(pkg, tab, checks, ds);
  }

  /**
   * A package that exists, but not at the requested version, is answered
   * with a 303 whose page offers the package's other versions.
   */
  lemma {:induction false} OtherVersionsPageServed(urlPath: string, tab: string, checks: Checks, ds: DataSource)
    requires urlPath != "/" && !IsStdRoute(urlPath)
    requires ParseDetailsURLPath(urlPath, checks.checkImportPath).Success?
    requires var res := ParseDetailsURLPath(urlPath, checks.checkImportPath).value;
             && res.pkgPath != "C" && res.version != LatestVersion
             && VersionAccepted(res.version, checks.semverIsValid)
             && ds.isExcluded(res.pkgPath) == NotExcluded
             && LookupPackage(ds, res, res.version).Missing?
             && LookupPackage(ds, res, LatestVersion).Found?
    ensures var res := ParseDetailsURLPath(urlPath, checks.checkImportPath).value;
            HandlePackageDetails(urlPath, tab, checks, ds)
            == ErrorResponse(StatusSeeOther, Some(OtherVersionsPage(Pkg, res.pkgPath, res.version,
                                                                    VersionsURL(Pkg, res.pkgPath))))
  {
    var res := ParseDetailsURLPath(urlPath, checks.checkImportPath).value;
    var get := PackageGetter(ds, res);
    assert get(res.version) == NotFound && get(LatestVersion) == Ok;
    var f := FetchPackageOrModule(Pkg, res.pkgPath, res.version, checks.semverIsValid, ds.isExcluded, get);
    assert f.code == StatusSeeOther;
    FetchErrorPassedOn(urlPath, tab, checks, ds);
  }

  /** A fetch answer other than 200 and 404 is passed on as the response, with its page. */
  lemma FetchErrorPassedOn(urlPath: string, tab: string, checks: Checks, ds: DataSource)
    requires urlPath != "/" && !IsStdRoute(urlPath)
    requires ParseDetailsURLPath(urlPath, checks.checkImportPath).Success?
    requires var res := ParseDetailsURLPath(urlPath, checks.checkImportPath).value;
             var f := FetchPackageOrModule(Pkg, res.pkgPath, res.version, checks.semverIsValid, ds.isExcluded,
                                           PackageGetter(ds, res));
             res.pkgPath != "C" && f.code != StatusOK && f.code != StatusNotFound
    ensures var res := ParseDetailsURLPath(urlPath, checks.checkImportPath).value;
            var f := FetchPackageOrModule(Pkg, res.pkgPath, res.version, checks.semverIsValid, ds.isExcluded,
                                          PackageGetter(ds, res));
            HandlePackageDetails(urlPath, tab, checks, ds) == ErrorResponse(f.code, f.page)
  {
  }

  /**
   * A redistributable package asked for an unknown tab shows its
   * documentation, and that page is always served: the documentation
   * fetcher cannot fail.
   */
  lemma {:induction false} DefaultPackageTabServed(pkg: VersionedPackage, tab: string, checks: Checks, ds: DataSource)
    requires AreRedistributable(pkg.licenses, checks.licenseAllowed) && tab !in PackageTabNames
    ensures var r := ServePackagePage(pkg, tab, checks, ds);
            && r.Details? && r.page.settings.name == "doc"
            && r.page.details == Some(FetchDocumentation)
  {
    var choice := SelectPackageTab(tab, AreRedistributable(pkg.licenses, checks.licenseAllowed));
    assert choice.settings.name == "doc";
    assert FetchDetailsForPackage("doc") == Success(FetchDocumentation);
    assert choice.fetcher == FetchDocumentation;
  }

  /**
   * The module licenses tab never answers 500 on its own account: once the
   * module and its licenses are read, the page is served, and any details
   * on it come from the license list already in hand.
   */
  lemma {:induction false} ModuleLicensesTabServed(urlPath: string, checks: Checks, ds: DataSource)
    requires ParseDetailsURLPath(TrimPrefix(urlPath, "/mod"), checks.checkImportPath).Success?
    requires var res := ParseDetailsURLPath(TrimPrefix(urlPath, "/mod"), checks.checkImportPath).value;
             && FetchPackageOrModule(Mod, res.pkgPath, res.version, checks.semverIsValid, ds.isExcluded,
                                     ModuleGetter(ds, res.pkgPath)).code == StatusOK
             && ds.getVersionInfo(res.pkgPath, res.version).Found?
             && var vi := ds.getVersionInfo(res.pkgPath, res.version).value;
                ds.getModuleLicenses(vi.modulePath, vi.version).Some?
    ensures var r := HandleModuleDetails(urlPath, "licenses", checks, ds);
            && r.Details? && r.page.settings.name == "licenses"
            && (r.page.details.Some? ==> r.page.details.value == FetchModuleLicenses)
  {
    assert FetchDetailsForModule("licenses") == Success(FetchModuleLicenses);
  }

  /**
   * A URL of the form /<module>@<version>/<rest>, for a package outside the
   * standard library, reads the package through its module:
   * GetPackageInModuleVersion(<module>/<rest>, <module>, ...).
   */
  lemma {:induction false} ModuleURLReadsInModule(m: string, v: string, rest: string, ver: string,
                                                 checks: Checks, ds: DataSource)
    requires SlashTrimmed(m) && SlashTrimmed(rest) && rest != "" && '@' !in m && '/' !in v && v != LatestVersion
    requires !InStdLib(m + "/" + rest) && checks.checkImportPath(m + "/" + rest)
    ensures ParseDetailsURLPath("/" + m + "@" + v + "/" + rest, checks.checkImportPath).Success?
    ensures var res := ParseDetailsURLPath("/" + m + "@" + v + "/" + rest, checks.checkImportPath).value;
            && res.pkgPath == m + "/" + rest && res.version == v
            && LookupPackage(ds, res, ver) == ds.getPackageInModuleVersion(m + "/" + rest, m, ver)
  {
    var pkgPath := m + "/" + rest;
    assert m + "/" <= pkgPath;
    assert pkgPath != m by { assert |pkgPath| > |m|; }
    assert SlashTrimmed(pkgPath) by { assert pkgPath[|pkgPath| - 1] == rest[|rest| - 1]; }
    StdPackagesInStdLib(rest);
    assert pkgPath[|m| + 1..] == rest;
    assert ConstructPackageURL(pkgPath, m, v) == "/" + m + "@" + v + "/" + rest;
    LongPackageURLRoundTrip(pkgPath, m, v, checks.checkImportPath);
  }

  /**
   * Every other package URL reads the package by its path alone:
   * GetPackage, both for a URL with no "@" and for a standard-library package.
   */
  lemma {:induction false} OtherURLReadsByPath(urlPath: string, ver: string, checks: Checks, ds: DataSource)
    requires ParseDetailsURLPath(urlPath, checks.checkImportPath).Success?
    requires var res := ParseDetailsURLPath(urlPath, checks.checkImportPath).value;
             '@' !in urlPath || InStdLib(res.pkgPath)
    ensures var res := ParseDetailsURLPath(urlPath, checks.checkImportPath).value;
            LookupPackage(ds, res, ver) == ds.getPackage(res.pkgPath, ver)
  {
    var res := ParseDetailsURLPath(urlPath, checks.checkImportPath).value;
    if '@' !in urlPath && !InStdLib(res.pkgPath) {
      assert SplitDetailsURLPath(urlPath).modulePath == Unknown;
    }
  }

  /** Every path under the "std" module counts as standard library. */
  lemma StdPackagesInStdLib(rest: string)
    ensures InStdLib(StdlibModulePath + "/" + rest)
  {
    var p := StdlibModulePath + "/" + rest;
    assert p[..3] == "std" && p[3] == '/';
    assert '/' !in p[..3];
  }

  /** "/<q>" for a `q` other than "std" without "@" is not a standard-library route. */
  lemma BarePathNotStdRoute(q: string)
    requires q != StdlibModulePath && '@' !in q
    ensures !IsStdRoute("/" + q)
  {
    var u := "/" + q;
    if |q| >= 4 {
      assert u[4] == q[3];
    } else if |q| == 3 {
      assert u[1..4] == q;
    }
  }

  /** "/<q>@<w>" for a `q` other than "std" without "@" is not a standard-library route. */
  lemma VersionedPathNotStdRoute(q: string, w: string)
    requires q != StdlibModulePath && '@' !in q
    ensures !IsStdRoute("/" + q + "@" + w)
  {
    var u := "/" + q + "@" + w;
    assert u[|q| + 1] == '@';
    if |q| >= 4 {
      assert u[4] == q[3];
    } else if |q| == 3 {
      assert u[1..4] == q;
    }
  }

  /**
   * No package link is routed to the module handler: the "/std" test of
   * handlePackageDetails catches the standard-library module's own pages
   * only, never a package page such as "/sort" or "/stdlib".
   */
  lemma {:induction false} PackageURLNotStdRoute(pkgPath: string, modulePath: string, version: string)
    requires pkgPath != StdlibModulePath && '@' !in pkgPath && '@' !in modulePath
    ensures !IsStdRoute(ConstructPackageURL(pkgPath, modulePath, version))
  {
    var url := ConstructPackageURL(pkgPath, modulePath, version);
    if version == LatestVersion {
      BarePathNotStdRoute(pkgPath);
    } else if pkgPath == modulePath || modulePath == StdlibModulePath {
      VersionedPathNotStdRoute(pkgPath, version);
    } else {
      var rest := TrimPrefix(pkgPath, modulePath + "/");
      assert url == "/" + modulePath + "@" + (version + "/" + rest);
      VersionedPathNotStdRoute(modulePath, version + "/" + rest);
    }
  }

  /** The versions tab is always shown, so a failing versions fetch is a 500 for every package. */
  lemma PackageVersionsFetchFails(pkg: VersionedPackage, checks: Checks, ds: DataSource)
    requires !ds.detailsAvailable(FetchPackageVersions)
    ensures ServePackagePage(pkg, "versions", checks, ds) == ErrorResponse(StatusInternalServerError, None)
  {
    var choice := SelectPackageTab("versions", AreRedistributable(pkg.licenses, checks.licenseAllowed));
    assert "versions" in PackageTabNames && "versions" in AlwaysShownPackageTabs;
    assert choice.canShowDetails;
    assert FetchDetailsForPackage("versions") == Success(FetchPackageVersions);
  }

  /**
   * The packages tab of a module is always shown, so once the module and
   * its licenses are read, a failing directory fetch is a 500.
   */
  lemma ModulePackagesFetchFails(urlPath: string, checks: Checks, ds: DataSource)
    requires !ds.detailsAvailable(FetchModuleDirectory)
    requires ParseDetailsURLPath(TrimPrefix(urlPath, "/mod"), checks.checkImportPath).Success?
    requires var res := ParseDetailsURLPath(TrimPrefix(urlPath, "/mod"), checks.checkImportPath).value;
             && FetchPackageOrModule(Mod, res.pkgPath, res.version, checks.semverIsValid, ds.isExcluded,
                                     ModuleGetter(ds, res.pkgPath)).code == StatusOK
             && ds.getVersionInfo(res.pkgPath, res.version).Found?
             && var vi := ds.getVersionInfo(res.pkgPath, res.version).value;
                ds.getModuleLicenses(vi.modulePath, vi.version).Some?
    ensures HandleModuleDetails(urlPath, "packages", checks, ds) == ErrorResponse(StatusInternalServerError, None)
  {
    assert "packages" in ModuleTabNames && "packages" in AlwaysShownModuleTabs;
    assert FetchDetailsForModule("packages") == Success(FetchModuleDirectory);
  }

  /**
   * The versions link of the other-versions page is the latest-version
   * link a header would carry, followed by the versions tab query.
   */
  lemma VersionsLinkIsLatestHeaderURL(path: string, modulePath: string)
    ensures VersionsURL(Pkg, path) == ConstructPackageURL(path, modulePath, LatestVersion) + "?tab=versions"
    ensures path != StdlibModulePath ==>
              VersionsURL(Mod, path) == ConstructModuleURL(path, LatestVersion) + "?tab=versions"
  {
  }

  /**
   * Without its query, the versions link of a package leads back to that
   * package at the latest version, and that of a module to the module.
   */
  lemma {:induction false} VersionsLinkResolves(path: string, checkImportPath: string -> bool)
    requires SlashTrimmed(path) && '@' !in path
    ensures var u := ConstructPackageURL(path, path, LatestVersion);
            && VersionsURL(Pkg, path) == u + "?tab=versions"
            && ResolvesTo(ParseDetailsURLPath(u, checkImportPath), checkImportPath,
                          Resolved(path, ExpectedModulePath(path, path, LatestVersion), LatestVersion))
    ensures path != StdlibModulePath ==>
              var u := ConstructModuleURL(path, LatestVersion);
              var r := ParseDetailsURLPath(TrimPrefix(u, "/mod"), checkImportPath);
              && VersionsURL(Mod, path) == u + "?tab=versions"
              && (r.Success? <==> checkImportPath(path))
              && (r.Success? ==> r.value.pkgPath == path && r.value.version == LatestVersion)
  {
    VersionsLinkIsLatestHeaderURL(path, path);
    LatestPackageURLRoundTrip(path, path, checkImportPath);
    ModuleURLRoundTrip(path, LatestVersion, checkImportPath);
  }
}

=== FILE: licenses.dfy ===
/**
 * The redistributability rule over a set of detected license files
 * (licensesAreRedistributable, fixed by TestLicensesAreRedistributable in
 * internal/license_test.go), with the license allow-list injected as a
 * predicate, and the root-license filter of createPackage.
 */
module Licenses {
  import opened Strings

  /** One detected license: its type and the file it was found in, relative to the module root. */
  datatype LicenseRecord = LicenseRecord(licenseType: string, filePath: string)

  /** The directory of a file path: everything before the last "/", or "." when there is none. */
  function Dir(filePath: string): (d: string)
    ensures '/' !in filePath ==> d == "."
    ensures '/' in filePath ==>
              && |d| < |filePath|
              && d == filePath[..|d|]
              && filePath[|d|] == '/'
              && '/' !in filePath[|d| + 1..]
  {
    var i := LastIndexOf(filePath, '/');
    if i == -1 then "." else filePath[..i]
  }

  /** Some record in directory `dir` has an allowed type. */
  predicate Compliant(lics: seq<LicenseRecord>, dir: string, allowed: string -> bool) {
    exists i | 0 <= i < |lics| :: Dir(lics[i].filePath) == dir && allowed(lics[i].licenseType)
  }

  /**
   * The redistributability rule: the root directory holds an allowed
   * license, and so does every directory that holds any license file.
   */
  predicate AreRedistributable(lics: seq<LicenseRecord>, allowed: string -> bool) {
    && Compliant(lics, ".", allowed)
    && forall i | 0 <= i < |lics| :: Compliant(lics, Dir(lics[i].filePath), allowed)
  }

  /**
   * Decides the rule in two passes: collect the directories that hold an
   * allowed license, then require the root and every directory with a
   * license file among them.
   */
  method LicensesAreRedistributable(lics: seq<LicenseRecord>, allowed: string -> bool) returns (ok: bool)
    ensures ok <==> AreRedistributable(lics, allowed)
  {
    var compliant: set<string> := {};
    var i := 0;
    while i < |lics|
      invariant 0 <= i <= |lics|
      invariant forall d :: d in compliant <==> Compliant(lics[..i], d, allowed)
    {
      if allowed(lics[i].licenseType) {
        compliant := compliant + {Dir(lics[i].filePath)};
      }
      assert lics[..i + 1] == lics[..i] + [lics[i]];
      CompliantAppend(lics[..i], lics[i], allowed);
      i := i + 1;
    }
    assert lics[..i] == lics;
    if "." !in compliant {
      return false;
    }
    var j := 0;
    while j < |lics|
      invariant 0 <= j <= |lics|
      invariant forall k | 0 <= k < j :: Dir(lics[k].filePath) in compliant
    {
      if Dir(lics[j].filePath) !in compliant {
        return false;
      }
      j := j + 1;
    }
    return true;
  }

  /** Appending one record makes its directory compliant when its type is allowed, and nothing else. */
  lemma CompliantAppend(lics: seq<LicenseRecord>, rec: LicenseRecord, allowed: string -> bool)
    ensures forall d :: Compliant(lics + [rec], d, allowed) <==>
                          Compliant(lics, d, allowed) || (Dir(rec.filePath) == d && allowed(rec.licenseType))
  {
    var ext := lics + [rec];
    forall d | Compliant(ext, d, allowed)
      ensures Compliant(lics, d, allowed) || (Dir(rec.filePath) == d && allowed(rec.licenseType))
    {
      var k :| 0 <= k < |ext| && Dir(ext[k].filePath) == d && allowed(ext[k].licenseType);
      if k < |lics| {
        assert ext[k] == lics[k];
      }
    }
    forall d | Compliant(lics, d, allowed)
      ensures Compliant(ext, d, allowed)
    {
      var k :| 0 <= k < |lics| && Dir(lics[k].filePath) == d && allowed(lics[k].licenseType);
      assert ext[k] == lics[k];
    }
    assert ext[|lics|] == rec;
  }

  /** No license file at all: not redistributable. */
  lemma NoLicenseNotRedistributable(allowed: string -> bool)
    ensures !AreRedistributable([], allowed)
  {
  }

  /**
   * Allowed licenses that all sit below the root are not enough: when every
   * file path has a "/" and does not start with "./", nothing is in the root
   * directory.
   */
  lemma RootLicenseRequired(lics: seq<LicenseRecord>, allowed: string -> bool)
    requires forall i | 0 <= i < |lics| :: '/' in lics[i].filePath && !("./" <= lics[i].filePath)
    ensures !AreRedistributable(lics, allowed)
  {
  }

  /** A file name without "/" lies in the root directory. */
  lemma DirOfName(name: string)
    requires '/' !in name
    ensures Dir(name) == "."
  {
  }

  /** The directory of dir + "/" + name, for a name without "/", is dir. */
  lemma DirOfJoined(dir: string, name: string)
    requires '/' !in name
    ensures Dir(dir + "/" + name) == dir
  {
    var p := dir + "/" + name;
    var d := Dir(p);
    assert p[|dir|] == '/';
  }

  /** The directory of a path spelled out as `dir/name`. */
  lemma DirOfPath(path: string, dir: string, name: string)
    requires path == dir + "/" + name && '/' !in name
    ensures Dir(path) == dir
  {
    DirOfJoined(dir, name);
  }

  /** A directory whose license files are all disallowed makes the whole set non-redistributable. */
  lemma NonCompliantDirectoryPoisons(lics: seq<LicenseRecord>, allowed: string -> bool, k: int)
    requires 0 <= k < |lics|
    requires forall i | 0 <= i < |lics| && Dir(lics[i].filePath) == Dir(lics[k].filePath) :: !allowed(lics[i].licenseType)
    ensures !AreRedistributable(lics, allowed)
  {
  }

  /** Only which records are present matters, not their order or repetition. */
  lemma {:induction false} SameRecordsSameVerdict(a: seq<LicenseRecord>, b: seq<LicenseRecord>, allowed: string -> bool)
    requires forall x :: x in a <==> x in b
    ensures AreRedistributable(a, allowed) <==> AreRedistributable(b, allowed)
  {
    CompliantFollowsRecords(a, b, allowed);
    CompliantFollowsRecords(b, a, allowed);
  }

  /** Compliance of a directory depends only on which records are present. */
  lemma CompliantFollowsRecords(a: seq<LicenseRecord>, b: seq<LicenseRecord>, allowed: string -> bool)
    requires forall x :: x in a <==> x in b
    ensures forall d :: Compliant(a, d, allowed) ==> Compliant(b, d, allowed)
    ensures AreRedistributable(a, allowed) ==> forall j | 0 <= j < |b| :: Compliant(a, Dir(b[j].filePath), allowed)
  {
    forall d | Compliant(a, d, allowed)
      ensures Compliant(b, d, allowed)
    {
      var i :| 0 <= i < |a| && Dir(a[i].filePath) == d && allowed(a[i].licenseType);
      assert a[i] in b;
      var j :| 0 <= j < |b| && b[j] == a[i];
    }
    if AreRedistributable(a, allowed) {
      forall j | 0 <= j < |b|
        ensures Compliant(a, Dir(b[j].filePath), allowed)
      {
        assert b[j] in a;
        var i :| 0 <= i < |a| && a[i] == b[j];
      }
    }
  }

  /** The license files in the root directory, in their original order (createPackage's filter). */
  function RootLicenses(lics: seq<LicenseRecord>): (r: seq<LicenseRecord>)
    ensures forall x :: x in r <==> x in lics && Dir(x.filePath) == "."
    ensures |r| <= |lics|
  {
    if |lics| == 0 then []
    else
      var rest := RootLicenses(lics[1..]);
      assert forall x :: x in lics <==> x == lics[0] || x in lics[1..];
      if Dir(lics[0].filePath) == "." then [lics[0]] + rest else rest
  }

  /** A single record is kept exactly when it lies in the root directory. */
  lemma RootLicensesOfOne(x: LicenseRecord)
    ensures RootLicenses([x]) == if Dir(x.filePath) == "." then [x] else []
  {
    assert [x][1..] == [];
  }

  /**
   * The filter distributes over concatenation, so together with the
   * one-record case it keeps the root records in their order and with
   * their repetitions, as the append loop of createPackage does.
   */
  lemma {:induction false} RootLicensesAppend(a: seq<LicenseRecord>, b: seq<LicenseRecord>)
    ensures RootLicenses(a + b) == RootLicenses(a) + RootLicenses(b)
    decreases |a|
  {
    if |a| == 0 {
      assert a + b == b;
    } else {
      assert (a + b)[1..] == a[1..] + b;
      RootLicensesAppend(a[1..], b);
    }
  }

  /**
   * The module header of a package page is redistributable exactly when an
   * allowed license sits in the root directory; sub-directory licenses play
   * no part.
   */
  lemma RootLicensesVerdict(lics: seq<LicenseRecord>, allowed: string -> bool)
    ensures AreRedistributable(RootLicenses(lics), allowed) <==> Compliant(lics, ".", allowed)
  {
    RootLicensesInRoot(lics);
    RootLicensesRootCompliance(lics, allowed);
  }

  lemma RootLicensesInRoot(lics: seq<LicenseRecord>)
    ensures forall j | 0 <= j < |RootLicenses(lics)| :: Dir(RootLicenses(lics)[j].filePath) == "."
  {
    var r := RootLicenses(lics);
    forall j | 0 <= j < |r|
      ensures Dir(r[j].filePath) == "."
    {
      assert r[j] in r;
    }
  }

  lemma RootLicensesRootCompliance(lics: seq<LicenseRecord>, allowed: string -> bool)
    ensures Compliant(RootLicenses(lics), ".", allowed) <==> Compliant(lics, ".", allowed)
  {
    if Compliant(lics, ".", allowed) {
      var i :| 0 <= i < |lics| && Dir(lics[i].filePath) == "." && allowed(lics[i].licenseType);
      CompliantByRecord(RootLicenses(lics), lics[i], allowed);
    }
    if Compliant(RootLicenses(lics), ".", allowed) {
      var r := RootLicenses(lics);
      var k :| 0 <= k < |r| && Dir(r[k].filePath) == "." && allowed(r[k].licenseType);
      CompliantByRecord(lics, r[k], allowed);
    }
  }

  /** A present record with an allowed type makes its own directory compliant. */
  lemma CompliantByRecord(lics: seq<LicenseRecord>, x: LicenseRecord, allowed: string -> bool)
    requires x in lics && allowed(x.licenseType)
    ensures Compliant(lics, Dir(x.filePath), allowed)
  {
    var i :| 0 <= i < |lics| && lics[i] == x;
  }

  /** A redistributable set stays redistributable when cut down to its root licenses. */
  lemma RootLicensesKeepVerdict(lics: seq<LicenseRecord>, allowed: string -> bool)
    requires AreRedistributable(lics, allowed)
    ensures AreRedistributable(RootLicenses(lics), allowed)
  {
    RootLicensesVerdict(lics, allowed);
  }

  /** The allow-list the test vectors assume: MIT and BSD-3-Clause are allowed, AGPL-3.0 is not. */
  predicate TestAllowList(allowed: string -> bool) {
    allowed("MIT") && allowed("BSD-3-Clause") && !allowed("AGPL-3.0")
  }

  /** The directories of the sub-directory license files the test vectors use. */
  lemma BarLicenseDir() ensures Dir("bar/LICENSE") == "bar" { DirOfPath("bar/LICENSE", "bar", "LICENSE"); }
  lemma FooLicenseDir() ensures Dir("foo/LICENSE") == "foo" { DirOfPath("foo/LICENSE", "foo", "LICENSE"); }
  lemma FooCopyingDir() ensures Dir("foo/COPYING") == "foo" { DirOfPath("foo/COPYING", "foo", "COPYING"); }
  lemma FooBarLicenseDir() ensures Dir("foo/bar/LICENSE") == "foo/bar" { DirOfPath("foo/bar/LICENSE", "foo/bar", "LICENSE"); }

  /** "redistributable license": MIT at the root. */
  lemma VectorRedistributableLicense(allowed: string -> bool)
    requires TestAllowList(allowed)
    ensures AreRedistributable([LicenseRecord("MIT", "LICENSE")], allowed)
  {
    var lics := [LicenseRecord("MIT", "LICENSE")];
    DirOfName("LICENSE");
    assert Dir(lics[0].filePath) == "." && allowed(lics[0].licenseType);
  }

  /** "no redistributable license at root": MIT only in bar/. */
  lemma VectorNoRedistributableLicenseAtRoot(allowed: string -> bool)
    requires TestAllowList(allowed)
    ensures !AreRedistributable([LicenseRecord("MIT", "bar/LICENSE")], allowed)
  {
    BarLicenseDir();
  }

  /** "no license". */
  lemma VectorNoLicense(allowed: string -> bool)
    requires TestAllowList(allowed)
    ensures !AreRedistributable([], allowed)
  {
  }

  /** "non-redistributable license": AGPL-3.0 at the root. */
  lemma VectorNonRedistributableLicense(allowed: string -> bool)
    requires TestAllowList(allowed)
    ensures !AreRedistributable([LicenseRecord("AGPL-3.0", "LICENSE")], allowed)
  {
  }

  /** Two records with allowed types, the first in the root directory, are redistributable. */
  lemma AllowedRootAndOther(allowed: string -> bool, a: LicenseRecord, b: LicenseRecord)
    requires Dir(a.filePath) == "." && allowed(a.licenseType) && allowed(b.licenseType)
    ensures AreRedistributable([a, b], allowed)
  {
    var lics := [a, b];
    assert Compliant(lics, Dir(lics[0].filePath), allowed);
    assert Compliant(lics, Dir(lics[1].filePath), allowed);
  }

  /** A middle record with a disallowed type, alone in its directory, spoils three records. */
  lemma LoneDisallowedInMiddle(allowed: string -> bool, a: LicenseRecord, b: LicenseRecord, c: LicenseRecord)
    requires !allowed(b.licenseType)
    requires Dir(a.filePath) != Dir(b.filePath) && Dir(c.filePath) != Dir(b.filePath)
    ensures !AreRedistributable([a, b, c], allowed)
  {
    NonCompliantDirectoryPoisons([a, b, c], allowed, 1);
  }

  /**
   * Four records, two in the root with the first allowed, and two sharing a
   * directory with the last allowed, are redistributable.
   */
  lemma AllowedInEachOfTwoDirectories(allowed: string -> bool, a: LicenseRecord, b: LicenseRecord, c: LicenseRecord, d: LicenseRecord)
    requires Dir(a.filePath) == "." && Dir(b.filePath) == "." && allowed(a.licenseType)
    requires Dir(c.filePath) == Dir(d.filePath) && allowed(d.licenseType)
    ensures AreRedistributable([a, b, c, d], allowed)
  {
    var lics := [a, b, c, d];
    assert Compliant(lics, ".", allowed) by { assert lics[0] == a; }
    assert Compliant(lics, Dir(d.filePath), allowed) by { assert lics[3] == d; }
  }

  /** "multiple redistributable": BSD-3-Clause at the root and MIT in bar/. */
  lemma VectorMultipleRedistributable(allowed: string -> bool)
    requires TestAllowList(allowed)
    ensures AreRedistributable([LicenseRecord("BSD-3-Clause", "LICENSE"), LicenseRecord("MIT", "bar/LICENSE")], allowed)
  {
    DirOfName("LICENSE");
    AllowedRootAndOther(allowed, LicenseRecord("BSD-3-Clause", "LICENSE"), LicenseRecord("MIT", "bar/LICENSE"));
  }

  /** "not all redistributable": AGPL-3.0 alone in foo/ spoils a compliant root and foo/bar/. */
  lemma VectorNotAllRedistributable(allowed: string -> bool)
    requires TestAllowList(allowed)
    ensures !AreRedistributable([LicenseRecord("BSD-3-Clause", "LICENSE"),
                                 LicenseRecord("AGPL-3.0", "foo/LICENSE"),
                                 LicenseRecord("MIT", "foo/bar/LICENSE")], allowed)
  {
    DirOfName("LICENSE");
    FooLicenseDir();
    FooBarLicenseDir();
    LoneDisallowedInMiddle(allowed, LicenseRecord("BSD-3-Clause", "LICENSE"),
                           LicenseRecord("AGPL-3.0", "foo/LICENSE"), LicenseRecord("MIT", "foo/bar/LICENSE"));
  }

  /** "at least one redistributable per directory": foo/ holds AGPL-3.0 and MIT, so it is compliant. */
  lemma VectorOneRedistributablePerDirectory(allowed: string -> bool)
    requires TestAllowList(allowed)
    ensures AreRedistributable([LicenseRecord("BSD-3-Clause", "LICENSE"),
                                LicenseRecord("BSD-0-Clause", "LICENSE.txt"),
                                LicenseRecord("AGPL-3.0", "foo/LICENSE"),
                                LicenseRecord("MIT", "foo/COPYING")], allowed)
  {
    DirOfName("LICENSE");
    DirOfName("LICENSE.txt");
    FooLicenseDir();
    FooCopyingDir();
    AllowedInEachOfTwoDirectories(allowed, LicenseRecord("BSD-3-Clause", "LICENSE"),
                                  LicenseRecord("BSD-0-Clause", "LICENSE.txt"),
                                  LicenseRecord("AGPL-3.0", "foo/LICENSE"), LicenseRecord("MIT", "foo/COPYING"));
  }
}

=== FILE: path_resolver.dfy ===
/**
 * Resolution of a details URL path `/<base>[@<version>[/<suffix>]]` into a
 * package path, a module path and a version (parseDetailsURLPath and inStdLib
 * in internal/frontend/details.go).
 */
module PathResolver {
  import opened Wrappers
  import opened Strings

  /** The version sentinel meaning "whatever version is newest" (internal.LatestVersion). */
  const LatestVersion: string := "latest"

  /** The module path under which the standard library is served (stdlib.ModulePath). */
  const StdlibModulePath: string := "std"

  /**
   * The three possible module-path outcomes: a path read from the URL, the
   * "<unknown>" sentinel when the URL does not say where the module ends, and
   * the standard library.
   */
  datatype ModulePath = Known(path: string) | Unknown | StdLib

  datatype Resolved = Resolved(pkgPath: string, modulePath: ModulePath, version: string)

  /** The import-path check rejected the package path. */
  datatype ParseError = MalformedPath(pkgPath: string)

  /** Drops one leading and then one trailing "/". */
  function TrimSlashes(s: string): (r: string)
    ensures r == s || "/" + r == s || r + "/" == s || "/" + r + "/" == s
    ensures s == "/" ==> r == ""
    ensures |s| >= 2 && s[0] == '/' && s[|s| - 1] == '/' ==> "/" + r + "/" == s
    ensures |s| >= 1 && s[0] == '/' && s[|s| - 1] != '/' ==> "/" + r == s
    ensures |s| >= 1 && s[0] != '/' && s[|s| - 1] == '/' ==> r + "/" == s
    ensures s == "" || (s[0] != '/' && s[|s| - 1] != '/') ==> r == s
  {
    TrimSuffix(TrimPrefix(s, "/"), "/")
  }

  /** Neither starts nor ends with "/". */
  predicate SlashTrimmed(p: string) {
    p == "" || (p[0] != '/' && p[|p| - 1] != '/')
  }

  /** A path that neither starts nor ends with "/" is left alone by TrimSlashes, also behind one "/". */
  lemma TrimSlashesOfClean(p: string)
    requires SlashTrimmed(p)
    ensures TrimSlashes(p) == p
    ensures TrimSlashes("/" + p) == p
  {
    assert ("/" + p)[1..] == p;
  }

  /**
   * Whether a package path belongs to the standard library: its first
   * path element has no ".".
   */
  function InStdLib(path: string): (b: bool)
    ensures b <==> '.' !in Split(path, '/')[0]
  {
    var i := IndexOf(path, '/');
    if i != -1 then '.' !in path[..i] else '.' !in path
  }

  /**
   * The splitting half of parseDetailsURLPath, before the import-path check
   * and the standard-library override.
   */
  function SplitDetailsURLPath(urlPath: string): (r: Resolved)
    ensures '@' !in urlPath ==> r.version == LatestVersion && r.modulePath == Unknown
    ensures '/' !in r.version
    ensures r.modulePath != StdLib
    ensures r.modulePath.Known? ==>
              && r.version != LatestVersion
              && '@' !in r.modulePath.path
              && |r.modulePath.path| + 1 < |r.pkgPath|
              && r.modulePath.path + "/" == r.pkgPath[..|r.modulePath.path| + 1]
  {
    var parts := SplitOnce(urlPath, '@');
    var basePath := TrimSlashes(parts[0]);
    if |parts| == 1 then
      Resolved(basePath, Unknown, LatestVersion)
    else
      var endParts := Split(parts[1], '/');
      var suffix := Join(endParts[1..], "/");
      var version := endParts[0];
      if suffix == "" || version == LatestVersion then
        Resolved(basePath, Unknown, version)
      else
        assert (basePath + "/" + suffix)[..|basePath| + 1] == basePath + "/";
        Resolved(basePath + "/" + suffix, Known(basePath), version)
  }

  /**
   * parseDetailsURLPath: split the URL path, reject a package path the
   * import-path check refuses, and force the standard-library module path
   * when the first path element has no ".".
   */
  function ParseDetailsURLPath(urlPath: string, checkImportPath: string -> bool): (r: Result<Resolved, ParseError>)
    ensures r.Failure? ==> !checkImportPath(r.error.pkgPath)
    ensures r.Success? ==> checkImportPath(r.value.pkgPath)
    ensures r.Success? ==> (r.value.modulePath == StdLib <==> InStdLib(r.value.pkgPath))
    ensures r.Success? && '@' !in urlPath ==> r.value.version == LatestVersion
    ensures r.Success? ==> '/' !in r.value.version
    ensures r.Success? && r.value.modulePath.Known? ==>
              && r.value.version != LatestVersion
              && r.value.modulePath.path + "/" <= r.value.pkgPath
              && r.value.modulePath.path + "/" != r.value.pkgPath
  {
    var split := SplitDetailsURLPath(urlPath);
    if !checkImportPath(split.pkgPath) then
      Failure(MalformedPath(split.pkgPath))
    else if InStdLib(split.pkgPath) then
      Success(split.(modulePath := StdLib))
    else
      Success(split)
  }

  /**
   * Without "@", the version is latest, the module path unknown (or the
   * standard library) and the package path the URL path with one leading
   * and one trailing "/" trimmed.
   */
  lemma ResolveUnversioned(urlPath: string, checkImportPath: string -> bool)
    requires '@' !in urlPath
    ensures var r := ParseDetailsURLPath(urlPath, checkImportPath);
            var pkgPath := TrimSlashes(urlPath);
            && (r.Success? <==> checkImportPath(pkgPath))
            && (r.Success? ==>
                  r.value == Resolved(pkgPath, if InStdLib(pkgPath) then StdLib else Unknown, LatestVersion))
  {
  }

  /** The part of the URL path after "@" yields the version and the suffix. */
  lemma {:induction false} VersionAndSuffix(version: string, tail: string)
    requires '/' !in version
    requires tail == "" || tail[0] == '/'
    ensures Split(version + tail, '/')[0] == version
    ensures Join(Split(version + tail, '/')[1..], "/") == (if tail == "" then "" else tail[1..])
  {
    if tail == "" {
      assert version + tail == version;
      SplitWithoutSeparator(version, '/');
    } else {
      assert version + tail == version + ['/'] + tail[1..];
      SplitAfterFirst(version, '/', tail[1..]);
      JoinSplit(tail[1..], '/');
      assert Split(version + tail, '/')[1..] == Split(tail[1..], '/');
    }
  }

  /** The splitting half on a URL path with "@": see ResolveVersioned. */
  lemma {:induction false} SplitVersioned(base: string, version: string, tail: string)
    requires '@' !in base && '/' !in version
    requires tail == "" || tail[0] == '/'
    ensures var r := SplitDetailsURLPath(base + "@" + version + tail);
            var b := TrimSlashes(base);
            var suffix := if tail == "" then "" else tail[1..];
            var keepsSuffix := suffix != "" && version != LatestVersion;
            r == Resolved(if keepsSuffix then b + "/" + suffix else b, if keepsSuffix then Known(b) else Unknown, version)
  {
    var urlPath := base + "@" + version + tail;
    assert urlPath == base + ['@'] + (version + tail);
    var parts := SplitOnce(urlPath, '@');
    assert urlPath[|base|] == '@';
    assert parts[0] == base;
    assert parts[1] == version + tail;
    VersionAndSuffix(version, tail);
  }

  /**
   * With "@", the version is the first "/"-element after it. The module path
   * is the trimmed base and the package path base + "/" + suffix exactly when
   * the suffix is non-empty and the version is not latest; otherwise the
   * suffix is dropped and the module path is unknown. A package path in the
   * standard library overrides the module path either way.
   */
  lemma {:induction false} ResolveVersioned(base: string, version: string, tail: string, checkImportPath: string -> bool)
    requires '@' !in base && '/' !in version
    requires tail == "" || tail[0] == '/'
    ensures var r := ParseDetailsURLPath(base + "@" + version + tail, checkImportPath);
            var b := TrimSlashes(base);
            var suffix := if tail == "" then "" else tail[1..];
            var keepsSuffix := suffix != "" && version != LatestVersion;
            var pkgPath := if keepsSuffix then b + "/" + suffix else b;
            var modulePath := if InStdLib(pkgPath) then StdLib else if keepsSuffix then Known(b) else Unknown;
            && (r.Success? <==> checkImportPath(pkgPath))
            && (r.Success? ==> r.value == Resolved(pkgPath, modulePath, version))
  {
    SplitVersioned(base, version, tail);
  }
}

=== FILE: strings.dfy ===
/**
 * The handful of Go `strings` operations the details handlers use, on `seq<char>`.
 * IndexOf, LastIndexOf, TrimPrefix, TrimSuffix and SplitOnce carry contracts
 * that pin their results down; Split and Join are pinned together by the
 * JoinSplit round trip.
 */
module Strings {

  /** Index of the first `c` in `s`, or -1 when there is none (Go's strings.IndexByte). */
  function IndexOf(s: string, c: char): (i: int)
    ensures -1 <= i < |s|
    ensures i == -1 <==> c !in s
    ensures 0 <= i ==> s[i] == c && c !in s[..i]
  {
    if |s| == 0 then -1
    else if s[0] == c then 0
    else
      var j := IndexOf(s[1..], c);
      if j == -1 then -1
      else
        assert s[..j + 1] == [s[0]] + s[1..][..j];
        j + 1
  }

  /** Index of the last `c` in `s`, or -1 when there is none (Go's strings.LastIndexByte). */
  function LastIndexOf(s: string, c: char): (i: int)
    ensures -1 <= i < |s|
    ensures i == -1 <==> c !in s
    ensures 0 <= i ==> s[i] == c && c !in s[i + 1..]
  {
    if |s| == 0 then -1
    else if s[|s| - 1] == c then |s| - 1
    else
      var j := LastIndexOf(s[..|s| - 1], c);
      if j == -1 then
        assert s == s[..|s| - 1] + [s[|s| - 1]];
        -1
      else
        assert s[j + 1..] == s[..|s| - 1][j + 1..] + [s[|s| - 1]];
        j
  }

  /** Go's strings.HasSuffix. */
  predicate HasSuffix(s: string, suffix: string) {
    |suffix| <= |s| && s[|s| - |suffix|..] == suffix
  }

  /** Go's strings.TrimPrefix: drops `prefix` once when `s` starts with it. */
  function TrimPrefix(s: string, prefix: string): (r: string)
    ensures prefix <= s ==> prefix + r == s
    ensures !(prefix <= s) ==> r == s
  {
    if prefix <= s then s[|prefix|..] else s
  }

  /** Go's strings.TrimSuffix: drops `suffix` once when `s` ends with it. */
  function TrimSuffix(s: string, suffix: string): (r: string)
    ensures HasSuffix(s, suffix) ==> r + suffix == s
    ensures !HasSuffix(s, suffix) ==> r == s
  {
    if HasSuffix(s, suffix) then s[..|s| - |suffix|] else s
  }

  /**
   * Go's strings.SplitN(s, sep, 2) for a one-character separator: the text
   * before the first `sep` and, when there is one, the text after it.
   */
  function SplitOnce(s: string, sep: char): (parts: seq<string>)
    ensures 1 <= |parts| <= 2
    ensures sep !in parts[0]
    ensures |parts| == 1 <==> sep !in s
    ensures |parts| == 1 ==> parts[0] == s
    ensures |parts| == 2 ==> s == parts[0] + [sep] + parts[1]
  {
    var i := IndexOf(s, sep);
    if i == -1 then [s]
    else
      assert s == s[..i] + [sep] + s[i + 1..];
      [s[..i], s[i + 1..]]
  }

  /** Go's strings.Split(s, sep) for a one-character separator. */
  function Split(s: string, sep: char): (parts: seq<string>)
    ensures |parts| >= 1
    ensures forall k | 0 <= k < |parts| :: sep !in parts[k]
    decreases |s|
  {
    var i := IndexOf(s, sep);
    if i == -1 then [s] else [s[..i]] + Split(s[i + 1..], sep)
  }

  /** Go's strings.Join: the parts with `sep` between neighbours. */
  function Join(parts: seq<string>, sep: string): string
  {
    if |parts| == 0 then ""
    else if |parts| == 1 then parts[0]
    else parts[0] + sep + Join(parts[1..], sep)
  }

  /** Joining what Split cut apart gives back the original text. */
  lemma {:induction false} JoinSplit(s: string, sep: char)
    ensures Join(Split(s, sep), [sep]) == s
    decreases |s|
  {
    var i := IndexOf(s, sep);
    if i != -1 {
      var head, rest := s[..i], s[i + 1..];
      var tail := Split(rest, sep);
      JoinSplit(rest, sep);
      SplitAtFirst(s, sep);
      JoinCons(head, tail, [sep]);
      AroundIndex(s, i);
    }
  }

  /** A sequence is what comes before an index, the element there, and what follows. */
  lemma AroundIndex<T>(s: seq<T>, i: int)
    requires 0 <= i < |s|
    ensures s == s[..i] + [s[i]] + s[i + 1..]
  {
  }

  /** One step of Split: the text before the first separator, then the split of the rest. */
  lemma SplitAtFirst(s: string, sep: char)
    requires sep in s
    ensures Split(s, sep) == [s[..IndexOf(s, sep)]] + Split(s[IndexOf(s, sep) + 1..], sep)
  {
  }

  /** One step of Join in front of a non-empty list. */
  lemma JoinCons(head: string, tail: seq<string>, sep: string)
    requires |tail| >= 1
    ensures Join([head] + tail, sep) == head + sep + Join(tail, sep)
  {
    assert ([head] + tail)[1..] == tail;
  }

  /** Where the first separator falls decides the first part of Split. */
  lemma SplitAfterFirst(head: string, sep: char, rest: string)
    requires sep !in head
    ensures Split(head + [sep] + rest, sep) == [head] + Split(rest, sep)
  {
    var s := head + [sep] + rest;
    var i := IndexOf(s, sep);
    assert s[|head|] == sep;
    assert s[..i] == head;
    assert s[i + 1..] == rest;
  }

  /** Text without the separator splits into itself alone. */
  lemma SplitWithoutSeparator(s: string, sep: char)
    requires sep !in s
    ensures Split(s, sep) == [s]
  {
  }

  /**
   * Go's `strings.Join(strings.Split(s, sep)[1:], sep)`: everything after the
   * first separator, or "" when there is none.
   */
  lemma {:induction false} JoinTailOfSplit(s: string, sep: char)
    ensures sep !in s ==> Join(Split(s, sep)[1..], [sep]) == ""
    ensures sep in s ==> Join(Split(s, sep)[1..], [sep]) == s[IndexOf(s, sep) + 1..]
  {
    var i := IndexOf(s, sep);
    if i == -1 {
      SplitWithoutSeparator(s, sep);
      assert Split(s, sep)[1..] == [];
    } else {
      var tail := Split(s[i + 1..], sep);
      SplitAtFirst(s, sep);
      assert Split(s, sep)[1..] == tail by { assert ([s[..i]] + tail)[1..] == tail; }
      JoinSplit(s[i + 1..], sep);
    }
  }
}

=== FILE: tabs.dfy ===
/**
 * The package and module tab registries, the default-tab rule, the
 * canShowDetails rule and the per-tab dispatch switches
 * (internal/frontend/details.go).
 */
module Tabs {
  import opened Wrappers

  /** Tab-specific metadata (TabSettings). */
  datatype TabSettings = TabSettings(name: string, displayName: string, alwaysShowDetails: bool, templateName: string)

  /** packageTabSettings, in display order. */
  const PackageTabSettings: seq<TabSettings> := [
    TabSettings("doc", "Doc", false, "pkg_doc.tmpl"),
    TabSettings("readme", "README", false, "readme.tmpl"),
    TabSettings("subdirectories", "Subdirectories", true, "subdirectories.tmpl"),
    TabSettings("versions", "Versions", true, "versions.tmpl"),
    TabSettings("imports", "Imports", true, "pkg_imports.tmpl"),
    TabSettings("importedby", "Imported By", true, "pkg_importedby.tmpl"),
    TabSettings("licenses", "Licenses", false, "licenses.tmpl")
  ]

  /** moduleTabSettings, in display order. */
  const ModuleTabSettings: seq<TabSettings> := [
    TabSettings("readme", "README", false, "readme.tmpl"),
    TabSettings("packages", "Packages", true, "subdirectories.tmpl"),
    TabSettings("versions", "Versions", true, "versions.tmpl"),
    TabSettings("licenses", "Licenses", false, "licenses.tmpl")
  ]

  /** The tab names of each registry, as the query parameter spells them. */
  const PackageTabNames: set<string> := {"doc", "readme", "subdirectories", "versions", "imports", "importedby", "licenses"}
  const ModuleTabNames: set<string> := {"readme", "packages", "versions", "licenses"}

  /** The tabs whose contents are shown even when the entity is not redistributable. */
  const AlwaysShownPackageTabs: set<string> := {"subdirectories", "versions", "imports", "importedby"}
  const AlwaysShownModuleTabs: set<string> := {"packages", "versions"}

  /** No two entries share a name. */
  predicate DistinctNames(tabs: seq<TabSettings>) {
    forall i, j | 0 <= i < j < |tabs| :: tabs[i].name != tabs[j].name
  }

  /**
   * The lookup map built by init: every entry stored under its name, a later
   * entry replacing an earlier one of the same name.
   */
  function BuildLookup(tabs: seq<TabSettings>): (m: map<string, TabSettings>)
    ensures m.Keys == set i | 0 <= i < |tabs| :: tabs[i].name
    ensures forall name | name in m :: m[name] in tabs && m[name].name == name
    decreases |tabs|
  {
    if |tabs| == 0 then map[]
    else
      var init := tabs[..|tabs| - 1];
      var last := tabs[|tabs| - 1];
      var m := BuildLookup(init);
      assert forall i | 0 <= i < |tabs| - 1 :: tabs[i] == init[i];
      m[last.name := last]
  }

  /** With distinct names, each entry is what the lookup map holds under its name. */
  lemma LookupOfDistinct(tabs: seq<TabSettings>, i: int)
    requires DistinctNames(tabs) && 0 <= i < |tabs|
    ensures tabs[i].name in BuildLookup(tabs) && BuildLookup(tabs)[tabs[i].name] == tabs[i]
  {
    var m := BuildLookup(tabs);
    assert tabs[i].name in m;
    var j :| 0 <= j < |tabs| && tabs[j] == m[tabs[i].name];
  }

  /** packageTabLookup and moduleTabLookup. */
  const PackageTabLookup: map<string, TabSettings> := BuildLookup(PackageTabSettings)
  const ModuleTabLookup: map<string, TabSettings> := BuildLookup(ModuleTabSettings)

  /** packageTabLookup has exactly the package tab names as keys. */
  lemma PackageTabKeys()
    ensures forall name :: name in PackageTabLookup <==> name in PackageTabNames
  {
    var t := PackageTabSettings;
    var keys := BuildLookup(t).Keys;
    assert keys == set i | 0 <= i < |t| :: t[i].name;
    PackageTabNamesListed();
    assert keys == PackageTabNames;
  }

  /** Each name in packageTabLookup looks up a package tab entry of that name. */
  lemma PackageTabEntries()
    ensures forall name | name in PackageTabLookup ::
              PackageTabLookup[name] in PackageTabSettings && PackageTabLookup[name].name == name
  {
  }

  /** The package tabs always shown are exactly subdirectories, versions, imports and importedby. */
  lemma PackageTabsAlwaysShown()
    ensures forall t | t in PackageTabSettings :: t.alwaysShowDetails <==> t.name in AlwaysShownPackageTabs
  {
  }

  /** The names of the package tab entries. */
  lemma PackageTabNamesListed()
    ensures (set i | 0 <= i < |PackageTabSettings| :: PackageTabSettings[i].name) == PackageTabNames
  {
    var t := PackageTabSettings;
    var names := set i | 0 <= i < |t| :: t[i].name;
    assert t[0].name in names && t[1].name in names && t[2].name in names && t[3].name in names;
    assert t[4].name in names && t[5].name in names && t[6].name in names;
  }

  /** moduleTabLookup has exactly the module tab names as keys. */
  lemma ModuleTabKeys()
    ensures forall name :: name in ModuleTabLookup <==> name in ModuleTabNames
  {
    var t := ModuleTabSettings;
    var keys := BuildLookup(t).Keys;
    assert keys == set i | 0 <= i < |t| :: t[i].name;
    ModuleTabNamesListed();
    assert keys == ModuleTabNames;
  }

  /** Each name in moduleTabLookup looks up a module tab entry of that name. */
  lemma ModuleTabEntries()
    ensures forall name | name in ModuleTabLookup ::
              ModuleTabLookup[name] in ModuleTabSettings && ModuleTabLookup[name].name == name
  {
  }

  /** The module tabs always shown are exactly packages and versions. */
  lemma ModuleTabsAlwaysShown()
    ensures forall t | t in ModuleTabSettings :: t.alwaysShowDetails <==> t.name in AlwaysShownModuleTabs
  {
  }

  /** The names of the module tab entries. */
  lemma ModuleTabNamesListed()
    ensures (set i | 0 <= i < |ModuleTabSettings| :: ModuleTabSettings[i].name) == ModuleTabNames
  {
    var t := ModuleTabSettings;
    var names := set i | 0 <= i < |t| :: t[i].name;
    assert t[0].name in names && t[1].name in names && t[2].name in names && t[3].name in names;
  }

  /** Both registries list every tab name once. */
  lemma RegistriesDistinct()
    ensures DistinctNames(PackageTabSettings) && DistinctNames(ModuleTabSettings)
  {
  }

  /** The detail fetchers the dispatch switches delegate to. */
  datatype DetailsFetcher =
    | FetchDocumentation
    | FetchPackageVersions
    | FetchPackageDirectory
    | FetchImports
    | FetchImportedBy
    | FetchPackageLicenses
    | FetchReadMe
    | FetchModuleDirectory
    | FetchModuleLicenses
    | FetchModuleVersions

  /** The "BUG: unable to fetch details: unknown tab" error. */
  datatype DispatchError = UnknownTab(tab: string)

  /**
   * fetchDetailsForPackage's switch: it handles exactly the names of the
   * package registry, each with its own fetcher.
   */
  function FetchDetailsForPackage(tab: string): (r: Result<DetailsFetcher, DispatchError>)
    ensures r.Success? <==> tab in PackageTabNames
    ensures r.Failure? ==> r.error == UnknownTab(tab)
  {
    match tab
    case "doc" => Success(FetchDocumentation)
    case "versions" => Success(FetchPackageVersions)
    case "subdirectories" => Success(FetchPackageDirectory)
    case "imports" => Success(FetchImports)
    case "importedby" => Success(FetchImportedBy)
    case "licenses" => Success(FetchPackageLicenses)
    case "readme" => Success(FetchReadMe)
    case _ => Failure(UnknownTab(tab))
  }

  /**
   * fetchDetailsForModule's switch: it handles exactly the names of the
   * module registry, each with its own fetcher.
   */
  function FetchDetailsForModule(tab: string): (r: Result<DetailsFetcher, DispatchError>)
    ensures r.Success? <==> tab in ModuleTabNames
    ensures r.Failure? ==> r.error == UnknownTab(tab)
  {
    match tab
    case "packages" => Success(FetchModuleDirectory)
    case "licenses" => Success(FetchModuleLicenses)
    case "versions" => Success(FetchModuleVersions)
    case "readme" => Success(FetchReadMe)
    case _ => Failure(UnknownTab(tab))
  }

  /** Different package tabs are served by different fetchers. */
  lemma PackageDispatchInjective(a: string, b: string)
    requires FetchDetailsForPackage(a).Success? && FetchDetailsForPackage(b).Success?
    requires FetchDetailsForPackage(a) == FetchDetailsForPackage(b)
    ensures a == b
  {
  }

  /** The tab a page ends up showing, whether its contents are fetched, and by which fetcher. */
  datatype TabChoice = TabChoice(settings: TabSettings, canShowDetails: bool, fetcher: DetailsFetcher)

  /**
   * The tab selection of servePackagePage: the requested tab when the
   * registry has it, else "doc" for a redistributable package and
   * "subdirectories" otherwise. Details are shown when the package is
   * redistributable or the tab is always shown. The chosen tab always
   * reaches a fetcher, so the unknown-tab error cannot happen.
   */
  function SelectPackageTab(tab: string, isRedistributable: bool): (c: TabChoice)
    ensures c.settings in PackageTabSettings
    ensures tab in PackageTabNames ==> c.settings.name == tab
    ensures tab !in PackageTabNames ==> c.settings.name == (if isRedistributable then "doc" else "subdirectories")
    ensures c.canShowDetails <==> isRedistributable || c.settings.name in AlwaysShownPackageTabs
    ensures FetchDetailsForPackage(c.settings.name) == Success(c.fetcher)
  {
    PackageTabKeys();
    PackageTabEntries();
    PackageTabsAlwaysShown();
    var name := if tab in PackageTabLookup then tab else if isRedistributable then "doc" else "subdirectories";
    var settings := PackageTabLookup[name];
    TabChoice(settings, isRedistributable || settings.alwaysShowDetails, FetchDetailsForPackage(name).value)
  }

  /**
   * The tab selection of handleModuleDetails: the requested tab when the
   * registry has it, else "readme". Details are shown when the module is
   * redistributable or the tab is always shown, and the chosen tab always
   * reaches a fetcher.
   */
  function SelectModuleTab(tab: string, isRedistributable: bool): (c: TabChoice)
    ensures c.settings in ModuleTabSettings
    ensures tab in ModuleTabNames ==> c.settings.name == tab
    ensures tab !in ModuleTabNames ==> c.settings.name == "readme"
    ensures c.canShowDetails <==> isRedistributable || c.settings.name in AlwaysShownModuleTabs
    ensures FetchDetailsForModule(c.settings.name) == Success(c.fetcher)
  {
    ModuleTabKeys();
    ModuleTabEntries();
    ModuleTabsAlwaysShown();
    var name := if tab in ModuleTabLookup then tab else "readme";
    var settings := ModuleTabLookup[name];
    TabChoice(settings, isRedistributable || settings.alwaysShowDetails, FetchDetailsForModule(name).value)
  }
}

=== FILE: urls.dfy ===
/**
 * The links a details page builds to a module and to a package
 * (constructModuleURL and constructPackageURL in
 * internal/frontend/details.go), and the proof that they lead back to the
 * same module or package when resolved.
 */
module Urls {
  import opened Wrappers
  import opened Strings
  import opened PathResolver

  /** constructModuleURL: "/mod/<module>" ("/std" for the standard library), plus "@<version>" unless latest. */
  function ConstructModuleURL(modulePath: string, version: string): (url: string)
    ensures modulePath != StdlibModulePath ==> "/mod/" + modulePath <= url
    ensures modulePath == StdlibModulePath ==> "/" + modulePath <= url
    ensures version == LatestVersion ==> HasSuffix(url, modulePath)
    ensures version != LatestVersion ==> HasSuffix(url, "@" + version)
  {
    var url := "/" + (if modulePath != StdlibModulePath then "mod/" else "") + modulePath;
    if version != LatestVersion then url + "@" + version else url
  }

  /**
   * constructPackageURL: "/<pkg>" for the latest version; "/<pkg>@<version>"
   * for a module's root package or a standard-library package; otherwise
   * "/<module>@<version>/<rest of pkg>".
   */
  function ConstructPackageURL(pkgPath: string, modulePath: string, version: string): (url: string)
    ensures version == LatestVersion ==> url == "/" + pkgPath
    ensures version != LatestVersion && (pkgPath == modulePath || modulePath == StdlibModulePath) ==>
              url == "/" + pkgPath + "@" + version
    ensures version != LatestVersion && pkgPath != modulePath && modulePath != StdlibModulePath ==>
              "/" + modulePath + "@" + version + "/" <= url
    ensures version != LatestVersion && pkgPath != modulePath && modulePath != StdlibModulePath ==>
              if modulePath + "/" <= pkgPath
              then url == "/" + modulePath + "@" + version + "/" + pkgPath[|modulePath| + 1..]
              else url == "/" + modulePath + "@" + version + "/" + pkgPath
  {
    if version == LatestVersion then "/" + pkgPath
    else if pkgPath == modulePath || modulePath == StdlibModulePath then "/" + pkgPath + "@" + version
    else "/" + modulePath + "@" + version + "/" + TrimPrefix(pkgPath, modulePath + "/")
  }

  /** The module path a package URL resolves to: the standard library, the module itself, or unknown. */
  function ExpectedModulePath(pkgPath: string, modulePath: string, version: string): ModulePath {
    if InStdLib(pkgPath) then StdLib
    else if version != LatestVersion && pkgPath != modulePath && modulePath != StdlibModulePath then Known(modulePath)
    else Unknown
  }

  /** The outcome a resolved link should have. */
  predicate ResolvesTo(r: Result<Resolved, ParseError>, checkImportPath: string -> bool, expected: Resolved) {
    && (r.Success? <==> checkImportPath(expected.pkgPath))
    && (r.Success? ==> r.value == expected)
  }

  /**
   * A package link resolves back to the package and the version it was built
   * from, for a package that lies inside its module (or the standard
   * library); the module path is recovered whenever the link names it.
   */
  lemma {:induction false} PackageURLRoundTrip(pkgPath: string, modulePath: string, version: string,
                                              checkImportPath: string -> bool)
    requires SlashTrimmed(pkgPath) && SlashTrimmed(modulePath)
    requires '@' !in pkgPath && '@' !in modulePath && '/' !in version
    requires pkgPath == modulePath || modulePath == StdlibModulePath || modulePath + "/" <= pkgPath
    ensures ResolvesTo(ParseDetailsURLPath(ConstructPackageURL(pkgPath, modulePath, version), checkImportPath),
                       checkImportPath, Resolved(pkgPath, ExpectedModulePath(pkgPath, modulePath, version), version))
  {
    if version == LatestVersion {
      LatestPackageURLRoundTrip(pkgPath, modulePath, checkImportPath);
    } else if pkgPath == modulePath || modulePath == StdlibModulePath {
      ShortPackageURLRoundTrip(pkgPath, modulePath, version, checkImportPath);
    } else {
      LongPackageURLRoundTrip(pkgPath, modulePath, version, checkImportPath);
    }
  }

  lemma LatestPackageURLRoundTrip(pkgPath: string, modulePath: string, checkImportPath: string -> bool)
    requires SlashTrimmed(pkgPath) && '@' !in pkgPath
    ensures ResolvesTo(ParseDetailsURLPath(ConstructPackageURL(pkgPath, modulePath, LatestVersion), checkImportPath),
                       checkImportPath, Resolved(pkgPath, ExpectedModulePath(pkgPath, modulePath, LatestVersion), LatestVersion))
  {
    TrimSlashesOfClean(pkgPath);
    ResolveUnversioned("/" + pkgPath, checkImportPath);
  }

  lemma ShortPackageURLRoundTrip(pkgPath: string, modulePath: string, version: string, checkImportPath: string -> bool)
    requires SlashTrimmed(pkgPath) && '@' !in pkgPath && '/' !in version && version != LatestVersion
    requires pkgPath == modulePath || modulePath == StdlibModulePath
    ensures ResolvesTo(ParseDetailsURLPath(ConstructPackageURL(pkgPath, modulePath, version), checkImportPath),
                       checkImportPath, Resolved(pkgPath, ExpectedModulePath(pkgPath, modulePath, version), version))
  {
    TrimSlashesOfClean(pkgPath);
    assert ConstructPackageURL(pkgPath, modulePath, version) == ("/" + pkgPath) + "@" + version + "";
    ResolveVersioned("/" + pkgPath, version, "", checkImportPath);
  }

  lemma LongPackageURLRoundTrip(pkgPath: string, modulePath: string, version: string, checkImportPath: string -> bool)
    requires SlashTrimmed(pkgPath) && SlashTrimmed(modulePath)
    requires '@' !in modulePath && '/' !in version && version != LatestVersion
    requires pkgPath != modulePath && modulePath != StdlibModulePath && modulePath + "/" <= pkgPath
    ensures ResolvesTo(ParseDetailsURLPath(ConstructPackageURL(pkgPath, modulePath, version), checkImportPath),
                       checkImportPath, Resolved(pkgPath, ExpectedModulePath(pkgPath, modulePath, version), version))
  {
    TrimSlashesOfClean(modulePath);
    var suffix := pkgPath[|modulePath| + 1..];
    assert pkgPath == modulePath + "/" + suffix;
    assert suffix != "";
    var tail := "/" + suffix;
    assert ConstructPackageURL(pkgPath, modulePath, version) == ("/" + modulePath) + "@" + version + tail;
    assert tail[1..] == suffix;
    ResolveVersioned("/" + modulePath, version, tail, checkImportPath);
  }

  /** The path the module handler parses: the link with "/mod" removed. */
  lemma ModuleURLTrimmed(modulePath: string, version: string)
    ensures TrimPrefix(ConstructModuleURL(modulePath, version), "/mod")
         == "/" + modulePath + (if version != LatestVersion then "@" + version else "")
  {
    var url := ConstructModuleURL(modulePath, version);
    if modulePath != StdlibModulePath {
      assert url == "/mod" + ("/" + modulePath + (if version != LatestVersion then "@" + version else ""));
    } else {
      assert !("/mod" <= url) by { assert url[1] == 's'; }
    }
  }

  /**
   * A module link, with "/mod" removed as the module handler does, resolves
   * back to the module path and the version it was built from.
   */
  lemma {:induction false} ModuleURLRoundTrip(modulePath: string, version: string, checkImportPath: string -> bool)
    requires SlashTrimmed(modulePath) && '@' !in modulePath && '/' !in version
    ensures var r := ParseDetailsURLPath(TrimPrefix(ConstructModuleURL(modulePath, version), "/mod"), checkImportPath);
            && (r.Success? <==> checkImportPath(modulePath))
            && (r.Success? ==> r.value.pkgPath == modulePath && r.value.version == version)
  {
    var trimmed := TrimPrefix(ConstructModuleURL(modulePath, version), "/mod");
    ModuleURLTrimmed(modulePath, version);
    if version == LatestVersion {
      assert trimmed == "/" + modulePath;
      LatestModulePathResolves(modulePath, checkImportPath);
    } else {
      assert trimmed == "/" + modulePath + "@" + version;
      VersionedModulePathResolves(modulePath, version, checkImportPath);
    }
  }

  lemma LatestModulePathResolves(modulePath: string, checkImportPath: string -> bool)
    requires SlashTrimmed(modulePath) && '@' !in modulePath
    ensures var r := ParseDetailsURLPath("/" + modulePath, checkImportPath);
            && (r.Success? <==> checkImportPath(modulePath))
            && (r.Success? ==> r.value.pkgPath == modulePath && r.value.version == LatestVersion)
  {
    TrimSlashesOfClean(modulePath);
    ResolveUnversioned("/" + modulePath, checkImportPath);
  }

  lemma VersionedModulePathResolves(modulePath: string, version: string, checkImportPath: string -> bool)
    requires SlashTrimmed(modulePath) && '@' !in modulePath && '/' !in version
    ensures var r := ParseDetailsURLPath("/" + modulePath + "@" + version, checkImportPath);
            && (r.Success? <==> checkImportPath(modulePath))
            && (r.Success? ==> r.value.pkgPath == modulePath && r.value.version == version)
  {
    TrimSlashesOfClean(modulePath);
    assert "/" + modulePath + "@" + version == ("/" + modulePath) + "@" + version + "";
    ResolveVersioned("/" + modulePath, version, "", checkImportPath);
  }
}

=== FILE: wrappers.dfy ===
/** Option and Result datatypes shared by the rest of the model. */
module Wrappers {

  /** A value that may be absent (a nil result in Go). */
  datatype Option<+T> = None | Some(value: T)

  /** The outcome of an operation that either succeeds with a value or fails with an error. */
  datatype Result<+R, +E> = Success(value: R) | Failure(error: E)
}
